=== FILE: README.md ===
# renamer, modelled in Dafny

`renamer` is a bulk file renamer. It lists the entries of the working directory in a
temporary text file, one path per line, and opens the user's editor on it. It then
reads the edited file back line by line against the entries and derives one action per
changed line:

- a line starting with `#` deletes the entry;
- a different trimmed text renames the entry to that text;
- an unchanged line leaves the entry alone.

The actions are shown and confirmed (`y`), discarded (`n`) or edited again (`e`).
Accepted actions are then applied one after another. A failure is reported, and the
remaining actions still run.

The model has six modules:

- `Text` (text.dfy): the Rust string operations the program relies on. These are
  `str::trim` over Unicode whitespace, `trim_start_matches`, ASCII lowercasing,
  `eq_ignore_ascii_case`, and the line splitting of `BufRead::lines`.
- `Entry` (entry.dfy): `FsItemType` and `FsItem`.
- `Actions` (action.dfy): `ActionType`, `Action`, `should_rename`, `Action::apply` and
  `Display`.
  - The filesystem is a map from path to entry kind. `remove_file`, `remove_dir_all`
    and `rename` are modelled as map updates with POSIX error cases.
  - An action refers to its entry by position in the listing.
- `Listing` (listing.dfy): `write_file_names`, `create_action` and `read_file_names`.
  - The reader pairs the k-th non-blank line with entry k.
  - There are two error messages: "file contained too many file names" and "file did
    not contain enough file names".
  - Its result equals a reference definition (`Requested`). It is proved sound,
    complete and ordered.
  - Writing then reading an unedited listing gives no actions.
- `Driver` (driver.dfy): from `main.rs`, the hidden-name filter of the walk, the
  normalisation and filtering of walked paths in `get_items_in_dir`, and the mapping of
  typed answers at both prompts.
  - The filter as written is `ItemForAsWritten`. It lists the walked directory itself
    under the empty name (see "## Findings").
  - `ItemFor`, `ItemsOf` and `ItemsInDir` describe the corrected filter, which leaves
    out every entry whose normalised name is empty: the walked directory, and any
    entry directly in the walked directory whose name is only `\` characters, such as
    a file named `\` (`BackslashNameListedAsEmpty`). Every entry whose normalised name is not
    empty is treated as the source treats it.
- `Session` (session.dfy): `run_edit_process` as a loop of rounds, and the apply loop of
  `main`.
  - The editor's output and the typed lines are inputs: a sequence of file contents
    after each editor run, and a sequence of typed lines.
  - In each round the first recognised answer decides, proved at the prompt, the
    round and the session (`ConfirmDecides`, `LoopConfirmDecides`,
    `FirstEditDecides`). A non-empty action list is accepted only after a `y`. An
    aborted session leaves the filesystem unchanged.

`should_rename` (src/action.rs:18-20) lets a rename between ASCII case variants go ahead
even when the target already exists. Renaming `A.txt` to `a.txt` while a distinct
`a.txt` exists therefore replaces that `a.txt` on a case-sensitive filesystem; it is
not skipped. `Actions.CaseVariantReplacesExisting` states this.

## Model

| member | source | states |
|---|---|---|
| Text.Trim | src/file.rs:68 | the result is a contiguous part of the line with no whitespace at either end, everything dropped before and after it is whitespace (Unicode White_Space, as `char::is_whitespace`), and it is empty exactly when the whole line is whitespace |
| Text.TrimOfTrimmed | src/file.rs:68 | trimming a line that has no surrounding whitespace gives it back unchanged |
| Text.ToLowerAscii | src/main.rs:96 | the answer keeps its length, and each character is replaced by its ASCII lowercase |
| Text.RunEnd | src/main.rs:63 | `trim_start_matches` with one character: every character skipped is that character, and the first one kept is not |
| Text.EqIgnoreAsciiCaseLowered | src/action.rs:19 | two names are equal ignoring ASCII case exactly when their ASCII-lowercased spellings are equal |
| Text.Lines | src/file.rs:51 | no line holds a newline, and non-empty text has at least one line |
| Text.IndexOf | src/file.rs:51 | the position found holds the newline, and no earlier position does; no position means no newline |
| Text.LinesOfJoin | src/file.rs:51 | splitting newline-joined lines back into lines (as `BufRead::lines` does) gives the original lines, when none holds a newline or ends in `\r` and the last is not empty |
| Listing.WriteFileNames | src/file.rs:23-35 | the written text is the entry names in order, separated by single newlines, with none before the first or after the last; no entries give empty text |
| Listing.WriteFrom | src/file.rs:24-33 | the `first` flag puts a separator before every name except the first one written |
| Listing.BlankIffTrimsToEmpty | src/file.rs:89 | a line is skipped exactly when trimming leaves nothing of it |
| Listing.CreateAction | src/file.rs:67-78 | a trimmed line starting with `#` deletes; otherwise there is no action exactly when the trimmed line equals the entry's name, and any other line renames the entry to the trimmed line, which then has no surrounding whitespace |
| Listing.UnchangedCommentNameDeletes | src/file.rs:69-71 | an entry whose own name starts with `#`, with or without trailing whitespace, is deleted even when its line is left untouched |
| Listing.UnchangedUntrimmedNameRenames | src/file.rs:68-73 | an entry whose name has surrounding whitespace is renamed to the trimmed name even when its line is left untouched |
| Listing.NonBlankAppend | src/file.rs:86-89 | the blank-line filter works line by line: filtering two joined runs of lines joins their filtered runs, so every non-blank line is kept in order |
| Listing.NonBlankSingle | src/file.rs:89 | a single line is kept exactly when it is not blank |
| Listing.NonBlankKeepsAll | src/file.rs:86-89 | when no line is blank the filter keeps every line, in order |
| Listing.Wants | src/file.rs:91-95 | the k-th non-blank line is classified against the k-th entry (lock-step pairing) |
| Listing.RequestedSound | src/file.rs:93-95 | every action collected comes from a line that asked for exactly that action on that entry |
| Listing.RequestedOrdered | src/file.rs:93-95 | the collected actions are in strictly increasing entry order |
| Listing.RequestedComplete | src/file.rs:93-95 | every line that asks for an action contributes one |
| Listing.RequestedNothing | src/file.rs:93-95 | when no line asks for anything the action list is empty |
| Listing.ReadFrom | src/file.rs:90-107 | the lock-step loop fails exactly when the counts of non-blank lines and of remaining entries differ, with the too-many or not-enough message by direction; otherwise it returns the reference list of requested actions |
| Listing.ReadFileNames | src/file.rs:80-108 | errors exactly when the non-blank line count differs from the entry count, with the matching message; otherwise the actions are exactly the requests of the paired lines, sound, complete, in entry order, and at most one per entry |
| Listing.ListableLineUnchanged | src/file.rs:67-78 | a name that is non-empty, already trimmed, newline-free and not starting with `#` is neither blank nor an action when written back unchanged |
| Listing.UneditedListingRoundTrip | src/file.rs:23-35 | reading back an unedited listing of such names succeeds with no actions |
| Listing.ListableNamesKept | src/file.rs:86-89 | the names of such entries all survive the blank-line filter |
| Listing.ListableNamesAskNothing | src/file.rs:91-95 | paired with their own entries, such names request nothing |
| Listing.ReadsNothing | src/file.rs:80-108 | matching counts and no requests make the reader return an empty action list |
| Actions.Relocate | src/action.rs:39 | a path moved with its directory keeps its length difference; the directory itself lands on the target, and anything inside lands inside the target |
| Actions.RelocateInverse | src/action.rs:39 | relocation can be undone by swapping the target prefix back for the source |
| Actions.RelocateLands | src/action.rs:39 | moved paths land on or under the target, never on the source |
| Actions.TargetSource | src/action.rs:39 | each relocated path comes from one original path under the source |
| Actions.TransplantLands | src/action.rs:39 | every moved entry sits on or under the target and not on the source |
| Actions.TransplantKeeps | src/action.rs:39 | every moved entry keeps its kind at its new path |
| Actions.TransplantSource | src/action.rs:39 | every moved entry sits under the target where its source sat under the source path, with that source's kind |
| Actions.Moved | src/action.rs:39 | after a move the target holds the source's kind, the source is gone, the subtree is relocated, unrelated paths are unchanged, and every entry is either a kept one outside the source or a moved one (`IsMove`) |
| Actions.RemoveFile | src/action.rs:34 | succeeds exactly on an existing file and removes only that path |
| Actions.RemoveDirAll | src/action.rs:35 | succeeds exactly on an existing directory and removes it with everything beneath it, keeping all other entries |
| Actions.RenamePath | src/action.rs:39 | for canonical relative paths, the rename succeeds exactly when `rename(2)` allows it (`RenameAllowed`: the source exists, and it is renamed onto itself or the target is not inside it, it is not inside the target, an existing target has the same kind and nothing beneath it, and the target's parent exists); a missing source is NotFound, a target inside the source is InvalidInput, a kind mismatch is IsADirectory or NotADirectory; a rename onto itself changes nothing; a successful rename is a move of the source and everything beneath it to the target, with every other entry kept and nothing else appearing (`IsMove`) |
| Actions.ShouldRenameRefuses | src/action.rs:18-20 | the guard refuses exactly an existing target whose ASCII-lowercased spelling differs from the source's; a target with the same lowercased spelling is never refused |
| Actions.RenameToFreeNameHappens | src/action.rs:37-44 | renaming an existing entry of the working directory to a free name there is carried out, as a move of the entry |
| Actions.CaseVariantReplacesExisting | src/action.rs:18-20 | renaming `A.txt` to `a.txt` while `a.txt` exists is carried out, not skipped |
| Actions.Apply | src/action.rs:31-49 | deleting a file or directory succeeds exactly when the entry of that kind exists, with the matching removal; a refused rename succeeds and changes nothing; a permitted rename between canonical relative paths succeeds exactly when `rename(2)` allows it, and is a move of the entry and everything beneath it, with every other entry kept and nothing else appearing; a rename onto the same name changes nothing; a missing rename source is NotFound |
| Listing.ShownAction | src/action.rs:56-63 | an action read from the edited listing is shown as "Remove " and the entry's name when its line starts with `#`, and otherwise as the entry's name, " -> " and the trimmed line it was edited to |
| Driver.FileName | src/main.rs:34-35 | the file name of a walked path is the part after its last `/`: a suffix with no `/`, preceded by `/` unless it is the whole path |
| Driver.Visible | src/main.rs:33-50 | an entry passes `filter_entry(is_not_hidden)` exactly when neither it nor any walked directory it lies in has a name starting with `.` |
| Driver.HiddenDirectoryListsNothing | src/main.rs:33-50 | when the walked directory's own name starts with `.`, nothing at all is listed |
| Driver.NormalizeName | src/main.rs:60-63 | the listed name is what follows the walked directory's prefix (or the whole path when that prefix is absent) minus one run of `/` and then one run of `\`, each taken as far as it goes |
| Driver.NormalizeRelative | src/main.rs:62-63 | a path directly under the walked directory is listed by its relative part |
| Driver.NormalizeRoot | src/main.rs:62-63 | the walked directory itself normalises to the empty name |
| Driver.BackslashNameListedAsEmpty | src/main.rs:57-80 | a file named `\` directly in the walked directory normalises to the empty name too; the filter as written lists it as a file named "", the corrected filter leaves it out |
| Driver.RootListedAsEmptyName | src/main.rs:57-80 | the filter as written (`ItemForAsWritten`), with directories included and a pattern that accepts "", lists the walked directory as a directory named "" |
| Driver.RootAndFileListing | src/file.rs:23-35 | the listing of an entry named "" and a file reads back as an empty line followed by the file's name |
| Driver.EmptyLineSkipped | src/file.rs:89 | the empty line is dropped by the blank-line filter, leaving one line for two entries |
| Driver.EmptyNameBreaksUneditedListing | src/file.rs:99-102 | that unedited listing fails with "file did not contain enough file names" |
| Driver.ItemFor | src/main.rs:57-80 | the corrected filter: an entry is listed exactly when it is a file or directories are included, its normalised name is not empty and the pattern accepts it; it is listed under that name and tagged by the walk's directory flag; the walked directory is never listed |
| Driver.ItemsOf | src/main.rs:56-81 | with the corrected filter, every listed entry has a non-empty name the pattern accepts, is a file unless directories are included, and comes from a walked entry the filter maps to it |
| Driver.ItemsOfComplete | src/main.rs:56-81 | with the corrected filter, every walked entry the filter keeps is listed |
| Driver.ItemsInDir | src/main.rs:47-81 | with the corrected filter, every listed entry has a non-empty name the pattern accepts, is a file unless directories are included, and comes from a walked entry that is not hidden and that the filter maps to it; there are no more entries than walked paths |
| Driver.ItemsInDirComplete | src/main.rs:47-81 | with the corrected filter, every walked entry that is not hidden and that the filter keeps is listed |
| Driver.CorrectedListingReadsBack | src/main.rs:47-81 | with the corrected filter, the unedited listing of any walk reads back with no actions, when every walked path other than the directory itself normalises to a name the listing carries unchanged |
| Driver.LowerOneLetter | src/main.rs:96 | a one-character answer lowercases to a letter exactly when it is that letter in either case |
| Driver.ConfirmationOfCases | src/main.rs:105-110 | after lowercasing, `y`/`Y` confirm, `n`/`N` decline and `e`/`E` edit, and nothing else is recognised as those |
| Driver.RetryOfCases | src/main.rs:126-130 | after lowercasing, `y`/`Y` retry and `n`/`N` give up |
| Driver.ConfirmationChoiceCases | src/main.rs:93-113 | a typed line confirms, declines or edits exactly when its trimmed text is the letter in either case |
| Driver.RetryChoiceCases | src/main.rs:120-132 | a typed line retries or gives up exactly when its trimmed text is `y`/`Y` or `n`/`N` |
| Driver.FirstAnswer | src/main.rs:101-112 | the prompt loop returns the first recognised answer and how many lines it used, all earlier lines being unrecognised; it finds none exactly when no line is recognised |
| Session.Confirm | src/main.rs:171-178 | the first recognised answer decides: acceptance of the shown actions needs it to be `y`, an abort needs it to be `n`, going round again needs it to be `e` as the last line used, and the prompt waits for more input exactly when no line is recognised |
| Session.ConfirmDecides | src/main.rs:171-178 | whatever lines precede it, the first recognised answer fixes the result: `y` accepts, `n` aborts, `e` goes round again after the lines up to it |
| Session.RetryPrompt | src/main.rs:180-189 | after a parse error the first recognised answer decides: an abort needs an `n` with every earlier line unrecognised, a retry needs a `y` as the last line used with every earlier line unrecognised, and the prompt waits exactly when no line is recognised |
| Session.Round | src/main.rs:157-190 | an empty action list is accepted without a prompt; accepted actions are what the file read as; acceptance of a non-empty list needs the first recognised answer to be `y`; an abort needs it to be `n` (or, after a parse error, the first recognised retry answer to be `n`); going round again needs `e` (or `y` after a parse error) as that answer; the round waits for input exactly when a prompt is shown and no line is recognised |
| Session.Loop | src/main.rs:156-191 | a finished session used at least one more edit; accepted actions are the reading of the last edit used; an edit that reads as nothing to do finishes at once; with no edit left, or a prompt and no recognised answer, the input runs out; non-empty acceptance needs a `y` and an abort needs an `n` among the answers |
| Session.LoopConfirmDecides | src/main.rs:157-178 | after a reading with actions, the first recognised answer decides the session: `y` finishes with those actions, `n` aborts, `e` continues with the next edit and the answers after it |
| Session.LoopRetryDecides | src/main.rs:180-189 | after a parse error, the first recognised answer decides the session: `y` continues with the next edit and the answers after it, `n` aborts |
| Session.Readings | src/file.rs:49-52 | each edit is read back as `read_file_names` over its lines |
| Session.FirstEditDecides | src/main.rs:157-178 | when the first edit reads as actions, the first recognised answer decides the session: `y` accepts them, `n` aborts, `e` runs the editor again |
| Session.NoThenYesAborts | src/main.rs:171-177 | answering `n` and then `y` to the first confirmation aborts the session |
| Session.RunEditProcess | src/main.rs:145-192 | a finished session used between one and all edits; what it accepts is the reading of the last edit used; non-empty acceptance needs a `y`; an abort needs an `n`; with no edit it cannot finish |
| Session.NothingToDoAcceptsAtOnce | src/main.rs:159-163 | an edit that asks for nothing ends the session at once with an empty action list |
| Session.UneditedListingFinishes | src/main.rs:157-163 | closing the editor without changes ends the session with nothing to do |
| Session.ConfirmAnswer | src/main.rs:171-178 | a first answer of `y`, `n` or `e` accepts, aborts or goes round again after one line |
| Session.ConfirmRepeats | src/main.rs:101-110 | an unrecognised answer is skipped and the question asked again |
| Session.RetryAnswer | src/main.rs:184-187 | a first answer of `y` or `n` after a parse error goes round again or aborts |
| Session.RetryRepeats | src/main.rs:122-130 | an answer the retry prompt does not recognise is skipped and the question asked again |
| Session.ApplyAll | src/main.rs:234-242 | each action is applied to the filesystem left by the ones before it, a failure leaves it unchanged, an error is recorded exactly for an action that failed and is that action's error, the final state is the one-by-one replay of all actions, and the recorded errors are the one-by-one replay's errors (`ReplayErrors`) |
| Session.ErrorsAreReplayed | src/main.rs:234-242 | a run of states, each following from the one before by the next action with that action's error recorded, has recorded exactly the replayed errors |
| Session.Renamer | src/main.rs:233-246 | the filesystem ends as the replay of the accepted actions and the reported errors are that replay's errors, one per action; an aborted or unfinished session changes nothing; any change needs a `y` among the answers |

## Left out

- The directory walk (`WalkDir`, from the walkdir crate) is not part of this model:
  traversal order, the depth limit and walk errors are left out. `ItemsInDir` takes the
  walked entries, the directory itself first, as input. The model takes from the crate's
  documented behaviour that `filter_entry` applies to every entry, the directory itself
  included, and does not descend into a rejected directory (`Visible`).
- A walked path that is not valid UTF-8 makes `to_str().unwrap()` (src/main.rs:61)
  panic. Walked paths are strings here, so that panic is left out, and so is
  `is_not_hidden`'s treatment of a file name that is not valid UTF-8.
- The regular expression is a caller-supplied predicate on names.
- The natural sort of the listing (src/main.rs:82) is left out. `ItemsInDir` keeps walk
  order. No property here depends on the order.
- Writing the temporary file, spawning the editor, and I/O errors are left out.
  `ReadFileError::Io` and its panic are left out. So is the dropping of lines that are
  not valid UTF-8 (src/file.rs:88).
- Terminal output is left out: printed notices, the action listing and error messages.
  `Display` gives the shown line (`ShownAction`), and `ApplyAll` returns the reported
  errors.
- Configuration loading (`confy`) and command-line parsing are left out.
- Lowercasing of answers is modelled as ASCII-only. Rust's `to_lowercase` is Unicode-wide,
  but no other character lowercases to `y`, `n` or `e`, so the recognised answers are
  the same.
- At the end of input the program would prompt forever, since an empty read is an
  unrecognised answer. The model stops with `InputExhausted`.
- The filesystem is a case-sensitive map from relative `/`-separated paths to kinds.
  Symlinks, permissions, absolute paths and `metadata` failures other than a missing
  path are left out. `should_rename`'s `metadata(to).is_err()` becomes "no entry at `to`".
- Actions.RenamePath: paths are unresolved strings compared as written, so `.` and `..`
  components, repeated `/` and a trailing `/` in a rename target are not interpreted.
  Such a target is a different key from the entry the operating system would resolve it
  to (`./b` is not `b`), so `should_rename`'s existence test and the rename itself are
  modelled only for canonical relative paths. `Actions.Apply` inherits this.
- `RemoveDirAll` fails or succeeds as a whole. A partial removal before an error is not
  modelled.
- Driver.ItemsInDir: the contract does not state the exact order of the listed
  entries, because the source sorts them afterwards by a natural order that is not
  modelled.

## Findings

| source | as written | input that shows it | evidently intended | confidence | as-written member | corrected member |
|---|---|---|---|---|---|---|
| src/main.rs:57-80 | with `--include-dirs` the walk's first entry, the working directory itself, is normalised to "" and listed as a directory; so is any entry directly in the walked directory whose name is only `\` characters (`BackslashNameListedAsEmpty`); the empty line is then skipped by the reader (src/file.rs:89) | walked entries: the directory itself and `a.txt`, pattern `.*`; the unedited listing fails with "file did not contain enough file names" | no entry with an empty normalised name is listed, so an unedited listing reads back with no actions | not executed | Driver.EmptyNameBreaksUneditedListing | Driver.CorrectedListingReadsBack |

=== FILE: action.dfy ===
/**
 Actions on listed entries and their effect on the filesystem (src/action.rs).

 The filesystem is a map from path (relative to the working directory, `/`-separated)
 to the kind of entry stored there; the operating-system calls `remove_file`,
 `remove_dir_all` and `rename` are modelled as updates of that map that either
 succeed with the new map or fail and change nothing.
 */
module Actions {
  import opened Text
  import opened Entry

  datatype ActionType = Delete | Rename(to: string)

  /**
   What to do (`act`) with the entry at position `index` of the listing. `Action` in action.rs
   keeps a reference to the entry; the position is that reference.
   */
  datatype Action = Action(act: ActionType, index: nat)

  type Fs = map<string, FsItemType>

  datatype IoError = NotFound | IsADirectory | NotADirectory | DirectoryNotEmpty | InvalidInput

  datatype IoResult = Done(fs: Fs) | Failed(error: IoError)

  /** The filesystem after an operation: unchanged when it failed. */
  function After(r: IoResult, fs: Fs): Fs {
    match r
    case Done(fs') => fs'
    case Failed(_) => fs
  }

  /** `p` lies strictly inside the directory `dir`. */
  predicate Beneath(p: string, dir: string) {
    dir + "/" <= p
  }

  predicate HasChildren(fs: Fs, dir: string) {
    exists p :: p in fs && Beneath(p, dir)
  }

  /** The position of the last `/` in `s`. */
  function LastSlash(s: string): (r: Option<nat>)
    ensures r.Some? ==> r.value < |s| && s[r.value] == '/' && '/' !in s[r.value + 1..]
    ensures r.None? ==> '/' !in s
  {
    if s == "" then None
    else if s[|s| - 1] == '/' then Some(|s| - 1)
    else
      match LastSlash(s[..|s| - 1])
      case None => assert s == s[..|s| - 1] + [s[|s| - 1]]; None
      case Some(k) =>
        assert s[k + 1..] == s[..|s| - 1][k + 1..] + [s[|s| - 1]];
        Some(k)
  }

  /** The directory that would hold `p`: the working directory when `p` has no `/`. */
  predicate ParentExists(fs: Fs, p: string) {
    match LastSlash(p)
    case None => true
    case Some(k) => p[..k] in fs && fs[p[..k]] == Directory
  }

  /** Where `p`, inside or equal to `from`, ends up when `from` is renamed to `to`. */
  function Relocate(p: string, from: string, to: string): (r: string)
    requires from <= p
    ensures |r| == |to| + |p| - |from|
    ensures p == from ==> r == to
    ensures Beneath(p, from) ==> Beneath(r, to)
  {
    assert p == from + p[|from|..];
    var r := to + p[|from|..];
    if Beneath(p, from) then
      assert p[|from|..][..1] == "/";
      assert r[..|to| + 1] == to + "/";
      r
    else
      r
  }

  /** Relocation can be undone: the part after `to` put back behind `from` gives the original path. */
  lemma RelocateInverse(p: string, from: string, to: string)
    requires from <= p
    ensures to <= Relocate(p, from, to)
    ensures from + Relocate(p, from, to)[|to|..] == p
  {
    assert Relocate(p, from, to)[|to|..] == p[|from|..];
    assert p == from + p[|from|..];
  }

  /** Where a moved path lands: on the target or beneath it, and never back on the source. */
  lemma RelocateLands(q: string, from: string, to: string)
    requires q == from || Beneath(q, from)
    requires from != to && !Beneath(from, to)
    ensures Relocate(q, from, to) == to || Beneath(Relocate(q, from, to), to)
    ensures Relocate(q, from, to) != from
  {
  }

  /** `p` is `dir` itself or lies beneath it. */
  predicate Within(p: string, dir: string) {
    p == dir || Beneath(p, dir)
  }

  /** The paths that the entries under `from` (itself included) take once moved to `to`. */
  function Targets(fs: Fs, from: string, to: string): set<string> {
    set q | q in fs && Within(q, from) :: Relocate(q, from, to)
  }

  /** Every target comes from exactly one moved path, recovered by swapping `to` back for `from`. */
  lemma TargetSource(fs: Fs, from: string, to: string, t: string)
    requires t in Targets(fs, from, to)
    ensures to <= t
    ensures var q := from + t[|to|..]; q in fs && Within(q, from) && Relocate(q, from, to) == t
  {
    var q :| q in fs && Within(q, from) && Relocate(q, from, to) == t;
    RelocateInverse(q, from, to);
  }

  /** The entries under `from` (itself included), re-keyed under `to`. */
  function Transplant(fs: Fs, from: string, to: string): (m: Fs)
    ensures m.Keys == Targets(fs, from, to)
  {
    map t | t in Targets(fs, from, to) :: TargetSource(fs, from, to, t); fs[from + t[|to|..]]
  }

  /** Moved entries land on the target or beneath it, never on the source. */
  lemma TransplantLands(fs: Fs, from: string, to: string)
    requires from != to && !Beneath(from, to)
    ensures forall t :: t in Transplant(fs, from, to) ==> Within(t, to) && t != from
  {
    forall t | t in Transplant(fs, from, to)
      ensures Within(t, to) && t != from
    {
      TargetSource(fs, from, to, t);
      RelocateLands(from + t[|to|..], from, to);
    }
  }

  /** Each entry under `from` keeps its kind at its new place. */
  lemma TransplantKeeps(fs: Fs, from: string, to: string)
    ensures forall p :: p in fs && Within(p, from) ==>
              Relocate(p, from, to) in Transplant(fs, from, to) && Transplant(fs, from, to)[Relocate(p, from, to)] == fs[p]
  {
    forall p | p in fs && Within(p, from)
      ensures Relocate(p, from, to) in Transplant(fs, from, to)
      ensures Transplant(fs, from, to)[Relocate(p, from, to)] == fs[p]
    {
      assert Relocate(p, from, to) in Targets(fs, from, to);
      RelocateInverse(p, from, to);
    }
  }

  /** Every moved entry comes from the path under `from` that `to` stands for in it. */
  lemma TransplantSource(fs: Fs, from: string, to: string)
    ensures forall t :: t in Transplant(fs, from, to) ==>
              to <= t && from + t[|to|..] in fs && Within(from + t[|to|..], from) &&
              Transplant(fs, from, to)[t] == fs[from + t[|to|..]]
  {
    forall t | t in Transplant(fs, from, to)
      ensures to <= t && from + t[|to|..] in fs && Within(from + t[|to|..], from)
    {
      TargetSource(fs, from, to, t);
    }
  }

  /**
   `r` is `fs` after moving `from`, and everything beneath it, to `to`: the source is
   gone, every moved entry sits at its relocated path with its kind, every other entry
   is kept, and each entry of `r` is either a kept entry of `fs` outside `from` or a
   moved one, found under `to` where its source under `from` was.
   */
  predicate IsMove(fs: Fs, from: string, to: string, r: Fs) {
    && from in fs
    && to in r && r[to] == fs[from]
    && from !in r
    && (forall p :: p in fs && p != from && p != to && !Beneath(p, from) && !Beneath(p, to) ==>
                      p in r && r[p] == fs[p])
    && (forall p :: p in fs && Beneath(p, from) ==>
                      Relocate(p, from, to) in r && r[Relocate(p, from, to)] == fs[p])
    && (forall p :: p in r ==>
                      || (p in fs && !Within(p, from) && r[p] == fs[p])
                      || (to <= p && from + p[|to|..] in fs && Within(from + p[|to|..], from) && r[p] == fs[from + p[|to|..]]))
  }

  /** The map after moving `from` and everything beneath it to `to`, replacing what `to` held. */
  function Moved(fs: Fs, from: string, to: string): (r: Fs)
    requires from in fs && from != to
    requires !Beneath(to, from) && !Beneath(from, to)
    ensures IsMove(fs, from, to, r)
    ensures forall p :: p in r ==> Within(p, to) || (p in fs && r[p] == fs[p])
  {
    var kept := map p | p in fs && !Within(p, from) && p != to :: fs[p];
    var moved := Transplant(fs, from, to);
    TransplantLands(fs, from, to);
    TransplantKeeps(fs, from, to);
    TransplantSource(fs, from, to);
    assert Relocate(from, from, to) == to;
    kept + moved
  }

  /** `fs::remove_file`: removes one file; a directory or a missing path is an error. */
  function RemoveFile(fs: Fs, path: string): (r: IoResult)
    ensures r.Done? <==> path in fs && fs[path] == File
    ensures r.Done? ==> r.fs == fs - {path}
  {
    if path !in fs then Failed(NotFound)
    else if fs[path].Directory? then Failed(IsADirectory)
    else Done(fs - {path})
  }

  /** `fs::remove_dir_all`: removes a directory and everything beneath it. */
  function RemoveDirAll(fs: Fs, path: string): (r: IoResult)
    ensures r.Done? <==> path in fs && fs[path] == Directory
    ensures r.Done? ==> forall p :: p in r.fs <==> p in fs && p != path && !Beneath(p, path)
    ensures r.Done? ==> forall p :: p in r.fs ==> r.fs[p] == fs[p]
  {
    if path !in fs then Failed(NotFound)
    else if fs[path].File? then Failed(NotADirectory)
    else Done(map p | p in fs && p != path && !Beneath(p, path) :: fs[p])
  }

  /**
   When `rename(2)` succeeds: the source exists, and either it is renamed onto itself or
   the target is not inside it, the source is not inside the target, an existing target
   is of the same kind and has nothing beneath it, and the target's parent exists.
   */
  predicate RenameAllowed(fs: Fs, from: string, to: string) {
    && from in fs
    && (from == to ||
        (&& !Beneath(to, from) && !Beneath(from, to)
         && (to in fs ==> fs[to] == fs[from] && !HasChildren(fs, to))
         && ParentExists(fs, to)))
  }

  /**
   `fs::rename` with POSIX `rename(2)` semantics on canonical relative paths: a missing
   source, a directory moved into itself, a target of the other kind, a non-empty
   target directory and a missing target parent are errors; otherwise the target is
   replaced.
   */
  function RenamePath(fs: Fs, from: string, to: string): (r: IoResult)
    ensures r.Done? <==> RenameAllowed(fs, from, to)
    ensures from !in fs ==> r == Failed(NotFound)
    ensures r == Failed(InvalidInput) <==> from in fs && from != to && Beneath(to, from)
    ensures r == Failed(IsADirectory) ==> to in fs && fs[to] == Directory && fs[from] == File
    ensures r == Failed(NotADirectory) ==> to in fs && fs[to] == File && fs[from] == Directory
    ensures r.Done? && from != to ==> IsMove(fs, from, to, r.fs)
    ensures r.Done? && from == to ==> r.fs == fs
  {
    if from !in fs then Failed(NotFound)
    else if from == to then Done(fs)
    else if Beneath(to, from) then Failed(InvalidInput)
    else if to in fs && fs[to] != fs[from] then
      Failed(if fs[to] == Directory then IsADirectory else NotADirectory)
    else if Beneath(from, to) || (to in fs && HasChildren(fs, to)) then Failed(DirectoryNotEmpty)
    else if !ParentExists(fs, to) then Failed(NotFound)
    else Done(Moved(fs, from, to))
  }

  /**
   The rename guard: a rename goes ahead when the two names differ only in ASCII case,
   or when nothing exists at the target.
   */
  predicate ShouldRename(fs: Fs, from: string, to: string) {
    EqIgnoreAsciiCase(from, to) || to !in fs
  }

  /**
   The guard refuses exactly the targets that exist and whose ASCII-lowercased spelling
   differs from the source's; a case variant is never refused.
   */
  lemma ShouldRenameRefuses(fs: Fs, from: string, to: string)
    ensures !ShouldRename(fs, from, to) <==> to in fs && ToLowerAscii(from) != ToLowerAscii(to)
    ensures ToLowerAscii(from) == ToLowerAscii(to) ==> forall fs' :: ShouldRename(fs', from, to)
  {
    EqIgnoreAsciiCaseLowered(from, to);
  }

  /**
   A rename to a case variant goes ahead even when another entry already exists under
   the new spelling: that entry is replaced.
   */
  lemma CaseVariantReplacesExisting()
    ensures var fs := map["A.txt" := File, "a.txt" := File];
            var r := Apply(Action(Rename("a.txt"), 0), [FsItem(File, "A.txt")], fs);
            r.Done? && "A.txt" !in r.fs && "a.txt" in r.fs
  {
    var fs := map["A.txt" := File, "a.txt" := File];
    assert EqIgnoreAsciiCase("A.txt", "a.txt") by {
      assert forall k :: 0 <= k < 5 ==> LowerChar("A.txt"[k]) == LowerChar("a.txt"[k]);
    }
    assert !Beneath("a.txt", "A.txt") && !Beneath("A.txt", "a.txt");
    assert !HasChildren(fs, "a.txt");
    assert LastSlash("a.txt") == None by { assert '/' !in "a.txt"; }
  }

  /** Carrying out an action on the filesystem; a refused rename succeeds without doing anything. */
  function Apply(a: Action, items: seq<FsItem>, fs: Fs): (r: IoResult)
    requires a.index < |items|
    ensures var item := items[a.index];
            a.act.Delete? && item.itemType == File ==>
              (r.Done? <==> item.name in fs && fs[item.name] == File) &&
              (r.Done? ==> r.fs == fs - {item.name})
    ensures var item := items[a.index];
            a.act.Delete? && item.itemType == Directory ==>
              (r.Done? <==> item.name in fs && fs[item.name] == Directory) &&
              (r.Done? ==> forall p :: p in r.fs <==> p in fs && p != item.name && !Beneath(p, item.name)) &&
              (r.Done? ==> forall p :: p in r.fs ==> r.fs[p] == fs[p])
    ensures var item := items[a.index];
            a.act.Rename? && !ShouldRename(fs, item.name, a.act.to) ==> r == Done(fs)
    ensures var item := items[a.index];
            a.act.Rename? && ShouldRename(fs, item.name, a.act.to) ==> (r.Done? <==> RenameAllowed(fs, item.name, a.act.to))
    ensures var item := items[a.index];
            a.act.Rename? && ShouldRename(fs, item.name, a.act.to) && r.Done? && item.name != a.act.to ==>
              IsMove(fs, item.name, a.act.to, r.fs)
    ensures var item := items[a.index];
            a.act.Rename? && ShouldRename(fs, item.name, a.act.to) && item.name == a.act.to ==> r == Done(fs) || item.name !in fs
    ensures var item := items[a.index];
            a.act.Rename? && ShouldRename(fs, item.name, a.act.to) && item.name !in fs ==> r == Failed(NotFound)
  {
    var item := items[a.index];
    match a.act
    case Delete =>
      (match item.itemType
       case File => RemoveFile(fs, item.name)
       case Directory => RemoveDirAll(fs, item.name))
    case Rename(path) =>
      if ShouldRename(fs, item.name, path) then RenamePath(fs, item.name, path)
      else Done(fs)
  }

  /** A path without `/` lies beneath no directory. */
  lemma SlashFreeNotBeneath(p: string, dir: string)
    requires '/' !in p
    ensures !Beneath(p, dir)
  {
    if |dir| < |p| {
      assert (dir + "/")[|dir|] == '/';
    }
  }

  /**
   Renaming an existing entry of the working directory to a new name that nothing uses
   yet, also in the working directory, goes ahead and moves the entry.
   */
  lemma RenameToFreeNameHappens(fs: Fs, item: FsItem, to: string)
    requires item.name in fs && to !in fs && item.name != to
    requires '/' !in item.name && '/' !in to
    ensures var r := Apply(Action(Rename(to), 0), [item], fs);
            r.Done? && IsMove(fs, item.name, to, r.fs)
  {
    SlashFreeNotBeneath(to, item.name);
    SlashFreeNotBeneath(item.name, to);
  }

  /** The line shown for an action when asking for confirmation. */
  function Display(a: Action, items: seq<FsItem>): (r: string)
    requires a.index < |items|
    ensures a.act.Delete? ==> r == "Remove " + items[a.index].name
    ensures a.act.Rename? ==> r == items[a.index].name + " -> " + a.act.to
  {
    match a.act
    case Delete => "Remove " + items[a.index].name
    case Rename(n) => items[a.index].name + " -> " + n
  }
}

=== FILE: driver.dfy ===
/**
 The small pure pieces of the command-line driver (src/main.rs): the hidden-name test,
 turning walked paths into listed entries, and mapping typed answers to choices.
 */
module Driver {
  import opened Text
  import opened Entry
  import opened Actions
  import opened Listing

  // ---------------------------------------------------------------------------
  // Entries from the directory walk
  // ---------------------------------------------------------------------------

  /** `is_not_hidden`: an entry is hidden when its file name starts with `.`. */
  function IsNotHidden(fileName: string): bool {
    !("." <= fileName)
  }

  /** One entry reported by the directory walk: its full path and whether it is a directory. */
  datatype WalkEntry = WalkEntry(path: string, isDir: bool)

  /** `DirEntry::file_name`: the last component of the path, the whole path when it has no `/`. */
  function FileName(path: string): (r: string)
    ensures |r| <= |path| && r == path[|path| - |r|..]
    ensures '/' !in r
    ensures |r| < |path| ==> path[|path| - |r| - 1] == '/'
  {
    match LastSlash(path)
    case None => path
    case Some(k) => path[k + 1..]
  }

  /**
   `filter_entry(is_not_hidden)`: an entry of the walk is yielded when neither it nor any
   walked directory it lies in has a hidden name, since the walk does not descend into a
   directory the filter rejects. The walked directory itself is subject to the filter.
   */
  predicate Shown(walk: seq<WalkEntry>, e: WalkEntry) {
    forall d :: d in walk && Within(e.path, d.path) ==> IsNotHidden(FileName(d.path))
  }

  /** The entries of `entries` that the filter lets through, in walk order. */
  function Visible(walk: seq<WalkEntry>, entries: seq<WalkEntry>): (r: seq<WalkEntry>)
    ensures |r| <= |entries|
    ensures forall e :: e in r <==> e in entries && Shown(walk, e)
  {
    if entries == [] then []
    else (if Shown(walk, entries[0]) then [entries[0]] else []) + Visible(walk, entries[1..])
  }

  /** The characters of `p` from `lo` up to `hi` are a run of `/` followed by a run of `\`. */
  predicate SlashesThenBackslashes(p: string, lo: nat, hi: nat)
    requires lo <= hi <= |p|
  {
    && (forall k :: lo <= k < hi ==> p[k] == '/' || p[k] == '\\')
    && (forall i, k :: lo <= i < k < hi && p[i] == '\\' ==> p[k] == '\\')
  }

  /**
   The listed name of a walked path: the walked directory's prefix is stripped when
   present, then leading `/` characters, then leading `\` characters. The result is a
   suffix of what is left after the prefix; what it drops there is one run of `/` and
   then one run of `\`, each as long as it goes.
   */
  function NormalizeName(path: string, directory: string): (r: string)
    ensures var start := if directory <= path then |directory| else 0;
            && |r| <= |path| - start && r == path[|path| - |r|..]
            && SlashesThenBackslashes(path, start, |path| - |r|)
            && (|r| > 0 ==> r[0] != '\\')
            && (|r| > 0 && r[0] == '/' ==> start < |path| - |r| && path[|path| - |r| - 1] == '\\')
  {
    var start := if directory <= path then |directory| else 0;
    var j := RunEnd(path, start, '/');
    var k := RunEnd(path, j, '\\');
    assert forall i :: start <= i < k && path[i] == '\\' ==> j <= i;
    path[k..]
  }

  /** A path under the directory is listed by its relative part. */
  lemma NormalizeRelative(directory: string, rel: string)
    requires rel == "" || (rel[0] != '/' && rel[0] != '\\')
    ensures NormalizeName(directory + "/" + rel, directory) == rel
  {
    var path := directory + "/" + rel;
    assert directory <= path;
    var n := |directory| + 1;
    assert path[|directory|] == '/';
    assert n < |path| ==> path[n] == rel[0];
    assert RunEnd(path, n, '/') == n;
    assert RunEnd(path, |directory|, '/') == n;
    assert RunEnd(path, n, '\\') == n;
    assert path[n..] == rel;
  }

  /** The directory itself is listed under the empty name. */
  lemma NormalizeRoot(directory: string)
    ensures NormalizeName(directory, directory) == ""
  {
    assert directory[|directory|..] == "";
  }

  /**
   The filter in `get_items_in_dir` as written: directories only with `includeDirs`,
   and only names the pattern accepts; the tag follows the walk's directory flag.
   */
  function ItemForAsWritten(e: WalkEntry, directory: string, includeDirs: bool, pattern: string -> bool): Option<FsItem> {
    if includeDirs || !e.isDir then
      var name := NormalizeName(e.path, directory);
      if pattern(name) then Some(FsItem(if e.isDir then Directory else File, name)) else None
    else None
  }

  /**
   The walk starts with the walked directory itself. With `includeDirs` and a pattern
   that accepts the empty name (the default `.*` does) it is listed as a directory
   named "".
   */
  lemma RootListedAsEmptyName(directory: string, pattern: string -> bool)
    requires pattern("")
    ensures ItemForAsWritten(WalkEntry(directory, true), directory, true, pattern) == Some(FsItem(Directory, ""))
  {
    NormalizeRoot(directory);
  }

  /**
   A file named `\` directly in the walked directory normalises to the empty name too:
   the `/` after the prefix and then the `\` are both stripped. As written it is listed
   as a file named ""; the corrected filter leaves it out.
   */
  lemma BackslashNameListedAsEmpty(directory: string, pattern: string -> bool)
    requires pattern("")
    ensures NormalizeName(directory + "/\\", directory) == ""
    ensures ItemForAsWritten(WalkEntry(directory + "/\\", false), directory, false, pattern) == Some(FsItem(File, ""))
    ensures ItemFor(WalkEntry(directory + "/\\", false), directory, false, pattern) == None
  {
    var path := directory + "/\\";
    assert directory <= path;
    assert path[|directory|] == '/' && path[|directory| + 1] == '\\';
    assert RunEnd(path, |directory| + 1, '/') == |directory| + 1;
    assert RunEnd(path, |directory|, '/') == |directory| + 1;
    assert RunEnd(path, |directory| + 2, '\\') == |directory| + 2;
    assert RunEnd(path, |directory| + 1, '\\') == |directory| + 2;
    assert path[|directory| + 2..] == "";
  }

  /** The listing of the walked directory and one file: an empty first line, then the file. */
  lemma RootAndFileListing()
    ensures Lines(WriteFileNames([FsItem(Directory, ""), FsItem(File, "a.txt")])) == ["", "a.txt"]
  {
    RootAndFileText();
    RootAndFileLines();
  }

  lemma RootAndFileText()
    ensures WriteFileNames([FsItem(Directory, ""), FsItem(File, "a.txt")]) == "\na.txt"
  {
    var names := Names([FsItem(Directory, ""), FsItem(File, "a.txt")]);
    assert names == ["", "a.txt"];
    assert JoinLines(names) == "" + "\n" + JoinLines(names[1..]);
  }

  lemma RootAndFileLines()
    ensures Lines("\na.txt") == ["", "a.txt"]
  {
    assert IndexOf("\na.txt", '\n') == Some(0);
    assert IndexOf("a.txt", '\n') == None by { assert '\n' !in "a.txt"; }
    assert Lines("\na.txt") == [DropCr("")] + Lines("a.txt");
  }

  /**
   An entry named "" writes an empty line, which the reader skips, so the unedited
   listing no longer has one line per entry.
   */
  lemma EmptyNameBreaksUneditedListing()
    ensures var items := [FsItem(Directory, ""), FsItem(File, "a.txt")];
            ReadFileNames(Lines(WriteFileNames(items)), items) == Err(Parse(NotEnoughMessage))
  {
    RootAndFileListing();
    EmptyLineSkipped();
  }

  /** The reader skips the empty line and keeps the file's. */
  lemma EmptyLineSkipped()
    ensures |NonBlank(["", "a.txt"])| == 1
  {
    assert IsBlank("");
    assert !IsBlank("a.txt") by { assert "a.txt"[0] == 'a' && !IsWhitespace('a'); }
    assert ["", "a.txt"][1..] == ["a.txt"];
  }

  /**
   The filter with the walked directory left out: an entry whose normalised name is
   empty is not listed, so every listed name is non-empty.
   */
  function ItemFor(e: WalkEntry, directory: string, includeDirs: bool, pattern: string -> bool): (r: Option<FsItem>)
    ensures r.Some? <==>
              (includeDirs || !e.isDir) && NormalizeName(e.path, directory) != "" && pattern(NormalizeName(e.path, directory))
    ensures r.Some? ==> r.value.name == NormalizeName(e.path, directory) && r.value.name != ""
    ensures r.Some? ==> (r.value.itemType == Directory <==> e.isDir)
    ensures e.path == directory ==> r.None?
  {
    NormalizeRoot(directory);
    if NormalizeName(e.path, directory) == "" then None
    else ItemForAsWritten(e, directory, includeDirs, pattern)
  }

  /** What every listed entry satisfies: a non-empty name the pattern accepts, and a file unless directories are included. */
  predicate Listed(item: FsItem, includeDirs: bool, pattern: string -> bool) {
    item.name != "" && pattern(item.name) && (includeDirs || item.itemType == File)
  }

  /** The `filter_map` over the entries the walk yields, in order. */
  function ItemsOf(entries: seq<WalkEntry>, directory: string, includeDirs: bool, pattern: string -> bool): (r: seq<FsItem>)
    ensures |r| <= |entries|
    ensures forall item :: item in r ==> Listed(item, includeDirs, pattern)
    ensures forall item :: item in r ==> exists e :: e in entries && ItemFor(e, directory, includeDirs, pattern) == Some(item)
  {
    if entries == [] then []
    else
      var rest := ItemsOf(entries[1..], directory, includeDirs, pattern);
      match ItemFor(entries[0], directory, includeDirs, pattern)
      case None => rest
      case Some(item) =>
        assert Listed(item, includeDirs, pattern);
        [item] + rest
  }

  /** Every entry the filter keeps is listed. */
  lemma {:induction false} ItemsOfComplete(entries: seq<WalkEntry>, directory: string, includeDirs: bool, pattern: string -> bool)
    ensures forall e :: e in entries && ItemFor(e, directory, includeDirs, pattern).Some? ==>
              ItemFor(e, directory, includeDirs, pattern).value in ItemsOf(entries, directory, includeDirs, pattern)
  {
    if entries != [] {
      ItemsOfComplete(entries[1..], directory, includeDirs, pattern);
      assert forall e :: e in entries ==> e == entries[0] || e in entries[1..];
    }
  }

  /**
   `get_items_in_dir` with the walked directory left out, before sorting: the entries of
   the walk that are not hidden, turned into listed entries, in walk order. Every
   listed entry comes from a shown walked entry.
   */
  function ItemsInDir(walk: seq<WalkEntry>, directory: string, includeDirs: bool, pattern: string -> bool): (r: seq<FsItem>)
    ensures |r| <= |walk|
    ensures forall item :: item in r ==> Listed(item, includeDirs, pattern)
    ensures forall item :: item in r ==>
              exists e :: e in walk && Shown(walk, e) && ItemFor(e, directory, includeDirs, pattern) == Some(item)
  {
    ItemsOf(Visible(walk, walk), directory, includeDirs, pattern)
  }

  /** Every shown walked entry the filter keeps is listed. */
  lemma ItemsInDirComplete(walk: seq<WalkEntry>, directory: string, includeDirs: bool, pattern: string -> bool)
    ensures forall e :: e in walk && Shown(walk, e) && ItemFor(e, directory, includeDirs, pattern).Some? ==>
              ItemFor(e, directory, includeDirs, pattern).value in ItemsInDir(walk, directory, includeDirs, pattern)
  {
    ItemsOfComplete(Visible(walk, walk), directory, includeDirs, pattern);
  }

  /**
   When the walked directory's own name starts with `.`, the filter rejects the walk's
   first entry and nothing beneath it is visited: the listing is empty.
   */
  lemma HiddenDirectoryListsNothing(walk: seq<WalkEntry>, directory: string, includeDirs: bool, pattern: string -> bool)
    requires WalkEntry(directory, true) in walk
    requires "." <= FileName(directory)
    requires forall e :: e in walk ==> Within(e.path, directory)
    ensures ItemsInDir(walk, directory, includeDirs, pattern) == []
  {
    var root := WalkEntry(directory, true);
    assert !IsNotHidden(FileName(root.path));
    forall e | e in walk
      ensures !Shown(walk, e)
    {
      assert Within(e.path, root.path);
    }
    NoneVisible(walk, walk);
  }

  lemma {:induction false} NoneVisible(walk: seq<WalkEntry>, entries: seq<WalkEntry>)
    requires forall e :: e in entries ==> !Shown(walk, e)
    ensures Visible(walk, entries) == []
  {
    if entries != [] {
      assert entries[0] in entries;
      NoneVisible(walk, entries[1..]);
    }
  }

  /**
   With the walked directory left out, the unedited listing of any walk reads back with
   no actions, provided every other walked path normalises to a name the listing can
   carry unchanged.
   */
  lemma CorrectedListingReadsBack(walk: seq<WalkEntry>, directory: string, includeDirs: bool, pattern: string -> bool)
    requires forall e :: e in walk && NormalizeName(e.path, directory) != "" ==> Listable(NormalizeName(e.path, directory))
    ensures var items := ItemsInDir(walk, directory, includeDirs, pattern);
            ReadFileNames(Lines(WriteFileNames(items)), items) == Ok([])
  {
    var items := ItemsInDir(walk, directory, includeDirs, pattern);
    forall k | 0 <= k < |items|
      ensures Listable(items[k].name)
    {
      assert items[k] in items;
    }
    UneditedListingRoundTrip(items);
  }

  // ---------------------------------------------------------------------------
  // Answers at the prompts
  // ---------------------------------------------------------------------------

  /** Answers to "Do you want to continue? (y/n/e)". */
  datatype InputResult = Yes | No | Edit

  /** Answers to "Do you want to retry editing? (y/n)" (`InputErrorResult::Yes` and `::No`). */
  datatype InputErrorResult = Retry | GiveUp

  /** `read_user_input`: the typed line, trimmed and lowercased. */
  function NormalizeAnswer(line: string): string {
    ToLowerAscii(Trim(line))
  }

  /** The match in `read_confirmation_user_input` over a normalised answer. */
  function ConfirmationOf(answer: string): Option<InputResult> {
    match answer
    case "n" => Some(No)
    case "y" => Some(Yes)
    case "e" => Some(Edit)
    case _ => None
  }

  /** The match in `read_error_confirmation_user_input` over a normalised answer. */
  function RetryOf(answer: string): Option<InputErrorResult> {
    match answer
    case "n" => Some(GiveUp)
    case "y" => Some(Retry)
    case _ => None
  }

  /** The confirmation prompt's mapping of a typed line; `None` means the question is asked again. */
  function ConfirmationChoice(line: string): Option<InputResult> {
    ConfirmationOf(NormalizeAnswer(line))
  }

  /** The retry prompt's mapping of a typed line; `None` means the question is asked again. */
  function RetryChoice(line: string): Option<InputErrorResult> {
    RetryOf(NormalizeAnswer(line))
  }

  /** A one-letter answer lowercases to `c` exactly when it is `c` or its capital. */
  lemma LowerOneLetter(t: string, c: char, upper: char)
    requires 'a' <= c <= 'z' && upper as int == c as int - 32
    ensures ToLowerAscii(t) == [c] <==> t == [c] || t == [upper]
  {
    if |t| == 1 {
      assert ToLowerAscii(t)[0] == LowerChar(t[0]);
      if ToLowerAscii(t) == [c] {
        assert t == [t[0]];
      }
    }
  }

  /** Before trimming: the letter in either case, and nothing else, is recognised. */
  lemma ConfirmationOfCases(t: string)
    ensures ConfirmationOf(ToLowerAscii(t)) == Some(Yes) <==> t == "y" || t == "Y"
    ensures ConfirmationOf(ToLowerAscii(t)) == Some(No) <==> t == "n" || t == "N"
    ensures ConfirmationOf(ToLowerAscii(t)) == Some(Edit) <==> t == "e" || t == "E"
  {
    LowerOneLetter(t, 'y', 'Y');
    LowerOneLetter(t, 'n', 'N');
    LowerOneLetter(t, 'e', 'E');
  }

  /** Before trimming: `y`/`Y` retries and `n`/`N` gives up. */
  lemma RetryOfCases(t: string)
    ensures RetryOf(ToLowerAscii(t)) == Some(Retry) <==> t == "y" || t == "Y"
    ensures RetryOf(ToLowerAscii(t)) == Some(GiveUp) <==> t == "n" || t == "N"
  {
    LowerOneLetter(t, 'y', 'Y');
    LowerOneLetter(t, 'n', 'N');
  }

  /** Which typed lines give which choice: the letter in either case, with any surrounding whitespace. */
  lemma ConfirmationChoiceCases(line: string)
    ensures ConfirmationChoice(line) == Some(Yes) <==> Trim(line) == "y" || Trim(line) == "Y"
    ensures ConfirmationChoice(line) == Some(No) <==> Trim(line) == "n" || Trim(line) == "N"
    ensures ConfirmationChoice(line) == Some(Edit) <==> Trim(line) == "e" || Trim(line) == "E"
  {
    ConfirmationOfCases(Trim(line));
  }

  /** The retry prompt accepts `y`/`Y` (with any surrounding whitespace) to retry and `n`/`N` to give up. */
  lemma RetryChoiceCases(line: string)
    ensures RetryChoice(line) == Some(Retry) <==> Trim(line) == "y" || Trim(line) == "Y"
    ensures RetryChoice(line) == Some(GiveUp) <==> Trim(line) == "n" || Trim(line) == "N"
  {
    RetryOfCases(Trim(line));
  }

  /** A recognised answer and how many typed lines it took to get it. */
  datatype Answer<T> = Answer(choice: T, used: nat)

  /**
   The prompt loop: lines that map to nothing are skipped and the question is asked
   again; `None` when the input runs out before a recognised answer.
   */
  function FirstAnswer<T>(lines: seq<string>, choice: string -> Option<T>): (r: Option<Answer<T>>)
    ensures r.Some? ==> 0 < r.value.used <= |lines| && choice(lines[r.value.used - 1]) == Some(r.value.choice)
    ensures r.Some? ==> forall k :: 0 <= k < r.value.used - 1 ==> choice(lines[k]).None?
    ensures r.None? <==> forall k :: 0 <= k < |lines| ==> choice(lines[k]).None?
  {
    if lines == [] then None
    else match choice(lines[0])
      case Some(c) => Some(Answer(c, 1))
      case None =>
        match FirstAnswer(lines[1..], choice)
        case None => None
        case Some(a) => Some(Answer(a.choice, a.used + 1))
  }
}

=== FILE: entry.dfy ===
/** The entries captured from the working directory (`FsItemType`, `FsItem` in src/file.rs). */
module Entry {

  datatype FsItemType = File | Directory

  /** One listed entry: its kind and its path relative to the working directory. */
  datatype FsItem = FsItem(itemType: FsItemType, name: string)

  /** The names of the entries, in listing order. */
  function Names(items: seq<FsItem>): (r: seq<string>)
    ensures |r| == |items|
    ensures forall k :: 0 <= k < |items| ==> r[k] == items[k].name
  {
    if items == [] then [] else [items[0].name] + Names(items[1..])
  }
}

=== FILE: listing.dfy ===
/**
 The editable listing (src/file.rs): writing the entry names one per line, and reading
 the edited lines back against the entries in lock-step to classify each line into an
 action.
 */
module Listing {
  import opened Text
  import opened Entry
  import opened Actions

  const TooManyMessage: string := "file contained too many file names"
  const NotEnoughMessage: string := "file did not contain enough file names"

  /** `ReadFileError::Parse`; the `Io` variant belongs to reading the temporary file, which is not modelled. */
  datatype ReadFileError = Parse(message: string)

  datatype ReadResult = Ok(actions: seq<Action>) | Err(error: ReadFileError)

  // ---------------------------------------------------------------------------
  // Writing
  // ---------------------------------------------------------------------------

  /**
   The text the loop in `write_file_names` writes for `items`; `first` says that nothing has been
   written yet, so no separator goes before the next name.
   */
  function WriteFrom(items: seq<FsItem>, first: bool): (text: string)
    ensures text == (if first || items == [] then "" else "\n") + JoinLines(Names(items))
  {
    if items == [] then ""
    else
      var rest := WriteFrom(items[1..], false);
      assert Names(items) == [items[0].name] + Names(items[1..]);
      (if first then "" else "\n") + items[0].name + rest
  }

  /** `write_file_names`: the names joined by newlines; an empty listing writes nothing. */
  function WriteFileNames(items: seq<FsItem>): (text: string)
    ensures text == JoinLines(Names(items))
    ensures items == [] ==> text == ""
    ensures items != [] ==> items[0].name <= text
  {
    WriteFrom(items, true)
  }

  // ---------------------------------------------------------------------------
  // Classifying one line
  // ---------------------------------------------------------------------------

  /** A line made of whitespace only; the reader skips these. */
  predicate IsBlank(line: string) {
    AllWhitespace(line)
  }

  /** The reader's test `line.trim().is_empty()` is exactly blankness. */
  lemma BlankIffTrimsToEmpty(line: string)
    ensures IsBlank(line) <==> Trim(line) == ""
  {
  }

  /**
   `create_action`: the trimmed line decides. A leading `#` deletes the entry, whatever
   follows it; a line equal to the entry's (untrimmed) name leaves it alone; any other
   line renames it to the trimmed text.
   */
  function CreateAction(line: string, item: FsItem): (r: Option<ActionType>)
    ensures "#" <= Trim(line) ==> r == Some(Delete)
    ensures !("#" <= Trim(line)) ==> (r.None? <==> Trim(line) == item.name)
    ensures !("#" <= Trim(line)) && Trim(line) != item.name ==> r == Some(Rename(Trim(line)))
    ensures r.Some? && r.value.Rename? ==>
              r.value.to == Trim(line) && IsTrimmed(r.value.to) && r.value.to != item.name
  {
    var trimmed := Trim(line);
    if "#" <= trimmed then Some(Delete)
    else if trimmed != item.name then Some(Rename(trimmed))
    else None
  }

  /** The comment marker wins over equality: an entry whose own name starts with `#` is deleted even when left unchanged. */
  lemma UnchangedCommentNameDeletes(item: FsItem)
    requires "#" <= item.name
    ensures CreateAction(item.name, item) == Some(Delete)
  {
  }

  /**
   The line is trimmed but the entry's name is not: an entry whose name has surrounding
   whitespace, left unchanged, is renamed to its trimmed name.
   */
  lemma UnchangedUntrimmedNameRenames(item: FsItem)
    requires Trim(item.name) != item.name && !("#" <= Trim(item.name))
    ensures CreateAction(item.name, item) == Some(Rename(Trim(item.name)))
  {
  }

  // ---------------------------------------------------------------------------
  // Reading the edited listing
  // ---------------------------------------------------------------------------

  /** The lines the reader pairs with entries: the non-blank ones, in order. */
  function NonBlank(lines: seq<string>): (r: seq<string>)
    ensures |r| <= |lines|
    ensures forall k :: 0 <= k < |r| ==> !IsBlank(r[k])
  {
    if lines == [] then []
    else if IsBlank(lines[0]) then NonBlank(lines[1..])
    else [lines[0]] + NonBlank(lines[1..])
  }

  /** Without blank lines nothing is skipped. */
  lemma {:induction false} NonBlankKeepsAll(lines: seq<string>)
    requires forall k :: 0 <= k < |lines| ==> !IsBlank(lines[k])
    ensures NonBlank(lines) == lines
  {
    if lines != [] {
      NonBlankKeepsAll(lines[1..]);
      assert lines == [lines[0]] + lines[1..];
    }
  }

  /** The filter works line by line: filtering joined lists joins the filtered lists. */
  lemma {:induction false} NonBlankAppend(a: seq<string>, b: seq<string>)
    ensures NonBlank(a + b) == NonBlank(a) + NonBlank(b)
  {
    if a == [] {
      assert a + b == b;
    } else {
      assert (a + b)[1..] == a[1..] + b;
      NonBlankAppend(a[1..], b);
    }
  }

  /** A single line is kept exactly when it is not blank. */
  lemma NonBlankSingle(line: string)
    ensures NonBlank([line]) == if IsBlank(line) then [] else [line]
  {
    assert [line][1..] == [];
  }

  /** What each non-blank line asks of the entry at its position, counting positions from `from`. */
  function Wants(nb: seq<string>, items: seq<FsItem>, from: nat): (r: seq<Option<ActionType>>)
    requires from + |nb| <= |items|
    ensures |r| == |nb|
    ensures forall k :: 0 <= k < |nb| ==> r[k] == CreateAction(nb[k], items[from + k])
    decreases |nb|
  {
    if nb == [] then [] else [CreateAction(nb[0], items[from])] + Wants(nb[1..], items, from + 1)
  }

  /**
   The actions a run of requests amounts to, the first request being for the entry at
   position `from`: one action per request, tagged with its position, in order.
   */
  function Requested(wants: seq<Option<ActionType>>, from: nat): (r: seq<Action>)
    ensures |r| <= |wants|
    decreases |wants|
  {
    if wants == [] then []
    else if wants[0].Some? then [Action(wants[0].value, from)] + Requested(wants[1..], from + 1)
    else Requested(wants[1..], from + 1)
  }

  /** Each action is for a position in range and carries what that position asks for. */
  predicate Sound(wants: seq<Option<ActionType>>, from: nat, actions: seq<Action>) {
    forall n :: 0 <= n < |actions| ==>
      from <= actions[n].index < from + |wants| && wants[actions[n].index - from] == Some(actions[n].act)
  }

  /** The actions are in strictly increasing position order. */
  predicate Ordered(actions: seq<Action>) {
    forall m, n :: 0 <= m < n < |actions| ==> actions[m].index < actions[n].index
  }

  /** Each position that asks for something has an action. */
  predicate Complete(wants: seq<Option<ActionType>>, from: nat, actions: seq<Action>) {
    forall k :: 0 <= k < |wants| && wants[k].Some? ==> exists n :: 0 <= n < |actions| && actions[n].index == from + k
  }

  lemma {:induction false} RequestedSound(wants: seq<Option<ActionType>>, from: nat)
    ensures Sound(wants, from, Requested(wants, from))
  {
    if wants != [] {
      RequestedSound(wants[1..], from + 1);
      var r := Requested(wants, from);
      var rest := Requested(wants[1..], from + 1);
      var off := if wants[0].Some? then 1 else 0;
      forall n | 0 <= n < |r|
        ensures from <= r[n].index < from + |wants| && wants[r[n].index - from] == Some(r[n].act)
      {
        if n >= off {
          assert r[n] == rest[n - off];
          assert wants[1..][rest[n - off].index - (from + 1)] == wants[r[n].index - from];
        }
      }
    }
  }

  lemma {:induction false} RequestedOrdered(wants: seq<Option<ActionType>>, from: nat)
    ensures Ordered(Requested(wants, from))
  {
    if wants != [] {
      RequestedOrdered(wants[1..], from + 1);
      RequestedSound(wants[1..], from + 1);
      var r := Requested(wants, from);
      var rest := Requested(wants[1..], from + 1);
      var off := if wants[0].Some? then 1 else 0;
      forall m, n | 0 <= m < n < |r|
        ensures r[m].index < r[n].index
      {
        assert r[n] == rest[n - off];
        if m >= off {
          assert r[m] == rest[m - off];
        }
      }
    }
  }

  lemma {:induction false} RequestedComplete(wants: seq<Option<ActionType>>, from: nat)
    ensures Complete(wants, from, Requested(wants, from))
  {
    if wants != [] {
      RequestedComplete(wants[1..], from + 1);
      var r := Requested(wants, from);
      var rest := Requested(wants[1..], from + 1);
      var off := if wants[0].Some? then 1 else 0;
      forall k | 0 <= k < |wants| && wants[k].Some?
        ensures exists n :: 0 <= n < |r| && r[n].index == from + k
      {
        if k == 0 {
          assert r[0].index == from;
        } else {
          assert wants[1..][k - 1] == wants[k];
          var n :| 0 <= n < |rest| && rest[n].index == from + 1 + (k - 1);
          assert r[n + off] == rest[n];
          assert r[n + off].index == from + k;
        }
      }
    }
  }

  /** Nothing asked, nothing gathered. */
  lemma {:induction false} RequestedNothing(wants: seq<Option<ActionType>>, from: nat)
    requires forall k :: 0 <= k < |wants| ==> wants[k].None?
    ensures Requested(wants, from) == []
  {
    if wants != [] {
      RequestedNothing(wants[1..], from + 1);
    }
  }

  /**
   The reader's loop from the point where `lines` remain to be read and the entry at
   position `from` is the next to be paired.
   */
  function ReadFrom(lines: seq<string>, items: seq<FsItem>, from: nat): (r: ReadResult)
    requires from <= |items|
    ensures r.Err? <==> |NonBlank(lines)| != |items| - from
    ensures r.Err? ==> r.error == Parse(if |NonBlank(lines)| > |items| - from then TooManyMessage else NotEnoughMessage)
    ensures r.Ok? ==> r.actions == Requested(Wants(NonBlank(lines), items, from), from)
    decreases |lines|
  {
    if lines == [] then
      if from < |items| then Err(Parse(NotEnoughMessage)) else Ok([])
    else if IsBlank(lines[0]) then
      ReadFrom(lines[1..], items, from)
    else if from == |items| then
      Err(Parse(TooManyMessage))
    else
      match ReadFrom(lines[1..], items, from + 1)
      case Err(e) => Err(e)
      case Ok(rest) =>
        var nb := NonBlank(lines);
        assert nb[1..] == NonBlank(lines[1..]);
        var want := CreateAction(lines[0], items[from]);
        Ok(if want.Some? then [Action(want.value, from)] + rest else rest)
  }

  /**
   `read_file_names`: blank lines are skipped; a count of non-blank lines different from
   the count of entries fails with the matching message and no actions; otherwise the
   `k`-th non-blank line is paired with entry `k`, and the actions are exactly the
   requests of those lines, in entry order.
   */
  function ReadFileNames(lines: seq<string>, items: seq<FsItem>): (r: ReadResult)
    ensures r.Err? <==> |NonBlank(lines)| != |items|
    ensures |NonBlank(lines)| > |items| ==> r == Err(Parse(TooManyMessage))
    ensures |NonBlank(lines)| < |items| ==> r == Err(Parse(NotEnoughMessage))
    ensures r.Ok? ==> r.actions == Requested(Wants(NonBlank(lines), items, 0), 0)
    ensures r.Ok? ==> |r.actions| <= |items|
    ensures r.Ok? ==> forall n :: 0 <= n < |r.actions| ==>
              && r.actions[n].index < |items|
              && CreateAction(NonBlank(lines)[r.actions[n].index], items[r.actions[n].index]) == Some(r.actions[n].act)
    ensures r.Ok? ==> forall m, n :: 0 <= m < n < |r.actions| ==> r.actions[m].index < r.actions[n].index
    ensures r.Ok? ==> forall k :: 0 <= k < |items| && CreateAction(NonBlank(lines)[k], items[k]).Some? ==>
              exists n :: 0 <= n < |r.actions| && r.actions[n].index == k
  {
    var r := ReadFrom(lines, items, 0);
    if r.Ok? then
      var wants := Wants(NonBlank(lines), items, 0);
      RequestedSound(wants, 0);
      RequestedOrdered(wants, 0);
      RequestedComplete(wants, 0);
      r
    else
      r
  }

  /** A name that the listing carries through unchanged when nobody edits it. */
  predicate Listable(name: string) {
    && name != ""
    && IsTrimmed(name)
    && '\n' !in name
    && !("#" <= name)
  }

  /** An unedited line for a listable entry is non-blank and asks for nothing. */
  lemma ListableLineUnchanged(item: FsItem)
    requires Listable(item.name)
    ensures !IsBlank(item.name) && CreateAction(item.name, item).None?
  {
    TrimOfTrimmed(item.name);
  }

  /**
   Reading back the unedited listing yields no actions, provided every name is non-blank,
   is its own trim, holds no newline and does not start with `#`.
   */
  lemma {:induction false} UneditedListingRoundTrip(items: seq<FsItem>)
    requires forall k :: 0 <= k < |items| ==> Listable(items[k].name)
    ensures ReadFileNames(Lines(WriteFileNames(items)), items) == Ok([])
  {
    var names := Names(items);
    forall k | 0 <= k < |names|
      ensures DropCr(names[k]) == names[k]
    {
      assert IsWhitespace('\r');
    }
    LinesOfJoin(names);
    assert Lines(WriteFileNames(items)) == names;
    ListableNamesKept(items);
    ListableNamesAskNothing(items);
    ReadsNothing(names, items);
  }

  lemma {:induction false} ListableNamesKept(items: seq<FsItem>)
    requires forall k :: 0 <= k < |items| ==> Listable(items[k].name)
    ensures NonBlank(Names(items)) == Names(items)
  {
    var names := Names(items);
    forall k | 0 <= k < |names|
      ensures !IsBlank(names[k])
    {
      ListableLineUnchanged(items[k]);
    }
    NonBlankKeepsAll(names);
  }

  lemma {:induction false} ListableNamesAskNothing(items: seq<FsItem>)
    requires forall k :: 0 <= k < |items| ==> Listable(items[k].name)
    ensures Requested(Wants(Names(items), items, 0), 0) == []
  {
    var names := Names(items);
    forall k | 0 <= k < |names|
      ensures CreateAction(names[k], items[k]).None?
    {
      ListableLineUnchanged(items[k]);
    }
    var w := Wants(names, items, 0);
    assert forall k :: 0 <= k < |w| ==> w[k].None?;
    RequestedNothing(w, 0);
  }

  /** When the counts agree and no line asks for anything, reading succeeds with no actions. */
  lemma ReadsNothing(lines: seq<string>, items: seq<FsItem>)
    requires |NonBlank(lines)| == |items|
    requires Requested(Wants(NonBlank(lines), items, 0), 0) == []
    ensures ReadFileNames(lines, items) == Ok([])
  {
  }

  /**
   What the confirmation prompt shows for an action read from the edited lines: the
   entry's name and the trimmed line it was edited to, or "Remove" and the name when
   that line starts with `#`.
   */
  lemma ShownAction(lines: seq<string>, items: seq<FsItem>, n: nat)
    requires ReadFileNames(lines, items).Ok? && n < |ReadFileNames(lines, items).actions|
    ensures var a := ReadFileNames(lines, items).actions[n];
            var line := Trim(NonBlank(lines)[a.index]);
            a.index < |items| &&
            Display(a, items) == if "#" <= line then "Remove " + items[a.index].name
                                 else items[a.index].name + " -> " + line
  {
  }
}

=== FILE: session.dfy ===
/**
 The edit session and the final apply loop of the command-line driver (src/main.rs).

 Each round of the session opens the editor on the listing file and reads it back.
 The editor, the terminal and the file are outside the model. The session is given
 the file's contents after each editor run, in order (`edits`), and the lines typed
 at the prompts, in order (`answers`). When either runs out the session stops with
 `InputExhausted`. At the real terminal an empty read is an unrecognised answer,
 so the program would keep asking.
 */
module Session {
  import opened Text
  import opened Entry
  import opened Actions
  import opened Listing
  import opened Driver

  /**
   How one iteration of the edit loop ends: it returns the accepted actions (`None`
   when aborted), goes round again after consuming `used` answers, or runs out of
   answers while a prompt is waiting.
   */
  datatype Step = Stop(accepted: Option<seq<Action>>) | Again(used: nat) | Stuck

  /** Position `k` holds the first answer from position `ai` on that the prompt recognises. */
  predicate FirstRecognised<T>(answers: seq<string>, ai: nat, k: int, choice: string -> Option<T>) {
    ai <= k < |answers| && choice(answers[k]).Some? && forall j :: ai <= j < k ==> choice(answers[j]).None?
  }

  lemma FirstRecognisedUnique<T>(answers: seq<string>, ai: nat, k: int, k': int, choice: string -> Option<T>)
    requires FirstRecognised(answers, ai, k, choice) && FirstRecognised(answers, ai, k', choice)
    ensures k == k'
  {
  }

  /**
   `read_confirmation_user_input` over the shown actions: the first recognised answer
   from position `ai` decides; "y" accepts them, "n" aborts, "e" edits again.
   */
  function Confirm(actions: seq<Action>, answers: seq<string>, ai: nat, choice: string -> Option<InputResult>): (r: Step)
    requires ai <= |answers|
    ensures r.Stop? && r.accepted.Some? ==>
              r.accepted.value == actions && exists k :: FirstRecognised(answers, ai, k, choice) && choice(answers[k]) == Some(Yes)
    ensures r.Stop? && r.accepted.None? ==>
              exists k :: FirstRecognised(answers, ai, k, choice) && choice(answers[k]) == Some(No)
    ensures r.Again? ==> 0 < r.used <= |answers| - ai && FirstRecognised(answers, ai, ai + r.used - 1, choice) &&
                         choice(answers[ai + r.used - 1]) == Some(Edit)
    ensures r.Stuck? <==> forall k :: ai <= k < |answers| ==> choice(answers[k]).None?
  {
    match FirstAnswer(answers[ai..], choice)
    case None =>
      assert forall k :: ai <= k < |answers| ==> answers[k] == answers[ai..][k - ai];
      Stuck
    case Some(a) =>
      assert answers[ai..][a.used - 1] == answers[ai + a.used - 1];
      match a.choice
      case Yes => Stop(Some(actions))
      case No => Stop(None)
      case Edit => Again(a.used)
  }

  /** `read_error_confirmation_user_input`: "y" edits again, "n" aborts. */
  function RetryPrompt(answers: seq<string>, ai: nat, choice: string -> Option<InputErrorResult>): (r: Step)
    requires ai <= |answers|
    ensures r.Stop? ==> r.accepted.None? && exists k :: FirstRecognised(answers, ai, k, choice) && choice(answers[k]) == Some(GiveUp)
    ensures r.Again? ==> 0 < r.used <= |answers| - ai && FirstRecognised(answers, ai, ai + r.used - 1, choice) &&
                         choice(answers[ai + r.used - 1]) == Some(Retry)
    ensures r.Stuck? <==> forall k :: ai <= k < |answers| ==> choice(answers[k]).None?
  {
    match FirstAnswer(answers[ai..], choice)
    case None =>
      assert forall k :: ai <= k < |answers| ==> answers[k] == answers[ai..][k - ai];
      Stuck
    case Some(a) =>
      assert answers[ai..][a.used - 1] == answers[ai + a.used - 1];
      match a.choice
      case Retry => Again(a.used)
      case GiveUp => Stop(None)
  }

  /**
   One iteration of the loop in `run_edit_process`, given how the file read back
   after the editor ran: an empty action list is returned at once; other actions are
   shown and confirmed; a parse error asks whether to retry.
   */
  function Round(read: ReadResult, answers: seq<string>, ai: nat,
                 confirm: string -> Option<InputResult>, retry: string -> Option<InputErrorResult>): (r: Step)
    requires ai <= |answers|
    ensures read == Ok([]) ==> r == Stop(Some([]))
    ensures r.Stop? && r.accepted.Some? ==> read == Ok(r.accepted.value)
    ensures r.Stop? && r.accepted.Some? && r.accepted.value != [] ==>
              exists k :: FirstRecognised(answers, ai, k, confirm) && confirm(answers[k]) == Some(Yes)
    ensures r.Stop? && r.accepted.None? ==>
              (read.Ok? && exists k :: FirstRecognised(answers, ai, k, confirm) && confirm(answers[k]) == Some(No)) ||
              (read.Err? && exists k :: FirstRecognised(answers, ai, k, retry) && retry(answers[k]) == Some(GiveUp))
    ensures r.Again? ==>
              && 0 < r.used <= |answers| - ai
              && ((read.Ok? && FirstRecognised(answers, ai, ai + r.used - 1, confirm) && confirm(answers[ai + r.used - 1]) == Some(Edit)) ||
               (read.Err? && FirstRecognised(answers, ai, ai + r.used - 1, retry) && retry(answers[ai + r.used - 1]) == Some(Retry)))
    ensures r.Stuck? <==>
              (read.Ok? && read.actions != [] && forall k :: ai <= k < |answers| ==> confirm(answers[k]).None?) ||
              (read.Err? && forall k :: ai <= k < |answers| ==> retry(answers[k]).None?)
  {
    match read
    case Ok(actions) => if actions == [] then Stop(Some([])) else Confirm(actions, answers, ai, confirm)
    case Err(_) => RetryPrompt(answers, ai, retry)
  }

  /**
   How a session ends: with the accepted actions (`None` when aborted) after
   `editsUsed` editor runs, or because the scripted input ran out.
   */
  datatype Outcome = Finished(accepted: Option<seq<Action>>, editsUsed: nat) | InputExhausted

  /** The edit loop with the readings of the edits from `ei` and the answers from `ai` still to come. */
  function Loop(readings: seq<ReadResult>, ei: nat, answers: seq<string>, ai: nat,
                confirm: string -> Option<InputResult>, retry: string -> Option<InputErrorResult>): (r: Outcome)
    requires ei <= |readings| && ai <= |answers|
    ensures r.Finished? ==> ei < r.editsUsed <= |readings|
    ensures ei == |readings| ==> r == InputExhausted
    ensures ei < |readings| && readings[ei] == Ok([]) ==> r == Finished(Some([]), ei + 1)
    ensures (&& ei < |readings| && readings[ei].Ok? && readings[ei].actions != []
             && forall k :: ai <= k < |answers| ==> confirm(answers[k]).None?) ==> r == InputExhausted
    ensures (&& ei < |readings| && readings[ei].Err?
             && forall k :: ai <= k < |answers| ==> retry(answers[k]).None?) ==> r == InputExhausted
    ensures r.Finished? && r.accepted.Some? ==> readings[r.editsUsed - 1] == Ok(r.accepted.value)
    ensures r.Finished? && r.accepted.Some? && r.accepted.value != [] ==>
              exists k :: ai <= k < |answers| && confirm(answers[k]) == Some(Yes)
    ensures r.Finished? && r.accepted.None? ==>
              exists k :: ai <= k < |answers| && (confirm(answers[k]) == Some(No) || retry(answers[k]) == Some(GiveUp))
    decreases |readings| - ei
  {
    if ei == |readings| then InputExhausted
    else
      match Round(readings[ei], answers, ai, confirm, retry)
      case Stop(accepted) => Finished(accepted, ei + 1)
      case Again(used) => Loop(readings, ei + 1, answers, ai + used, confirm, retry)
      case Stuck => InputExhausted
  }

  /**
   After a reading with actions, the first recognised answer decides the session: "y"
   finishes with those actions, "n" aborts, and "e" opens the editor again with the
   answers after it.
   */
  lemma LoopConfirmDecides(readings: seq<ReadResult>, ei: nat, answers: seq<string>, ai: nat, k: nat,
                           confirm: string -> Option<InputResult>, retry: string -> Option<InputErrorResult>)
    requires ei < |readings| && readings[ei].Ok? && readings[ei].actions != []
    requires FirstRecognised(answers, ai, k, confirm)
    ensures Loop(readings, ei, answers, ai, confirm, retry) == match confirm(answers[k]).value
              case Yes => Finished(Some(readings[ei].actions), ei + 1)
              case No => Finished(None, ei + 1)
              case Edit => Loop(readings, ei + 1, answers, k + 1, confirm, retry)
  {
    var actions := readings[ei].actions;
    ConfirmDecides(actions, answers, ai, k, confirm);
    var step := Round(readings[ei], answers, ai, confirm, retry);
    assert step == Confirm(actions, answers, ai, confirm);
    match confirm(answers[k]).value
    case Yes => assert step == Stop(Some(actions));
    case No => assert step == Stop(None);
    case Edit => assert step == Again(k - ai + 1);
  }

  /**
   After a reading that does not parse, the first recognised answer decides the session:
   "y" opens the editor again with the answers after it, "n" aborts.
   */
  lemma LoopRetryDecides(readings: seq<ReadResult>, ei: nat, answers: seq<string>, ai: nat, k: nat,
                         confirm: string -> Option<InputResult>, retry: string -> Option<InputErrorResult>)
    requires ei < |readings| && readings[ei].Err?
    requires FirstRecognised(answers, ai, k, retry)
    ensures Loop(readings, ei, answers, ai, confirm, retry) == match retry(answers[k]).value
              case Retry => Loop(readings, ei + 1, answers, k + 1, confirm, retry)
              case GiveUp => Finished(None, ei + 1)
  {
    RetryDecides(answers, ai, k, retry);
    assert Round(readings[ei], answers, ai, confirm, retry) == RetryPrompt(answers, ai, retry);
  }

  /** How each edit of the listing reads back. */
  function Readings(items: seq<FsItem>, edits: seq<string>): (readings: seq<ReadResult>)
    ensures |readings| == |edits|
    ensures forall k :: 0 <= k < |edits| ==> readings[k] == ReadFileNames(Lines(edits[k]), items)
  {
    if edits == [] then [] else [ReadFileNames(Lines(edits[0]), items)] + Readings(items, edits[1..])
  }

  /**
   `run_edit_process`: a fresh session. Accepted actions are the reading of the last
   edit; a non-empty list is only accepted after a "y", and an abort follows an "n".
   */
  function RunEditProcess(items: seq<FsItem>, edits: seq<string>, answers: seq<string>): (r: Outcome)
    ensures r.Finished? ==> 0 < r.editsUsed <= |edits|
    ensures r.Finished? && r.accepted.Some? ==> ReadFileNames(Lines(edits[r.editsUsed - 1]), items) == Ok(r.accepted.value)
    ensures r.Finished? && r.accepted.Some? && r.accepted.value != [] ==>
              exists k :: 0 <= k < |answers| && ConfirmationChoice(answers[k]) == Some(Yes)
    ensures r.Finished? && r.accepted.None? ==>
              exists k :: 0 <= k < |answers| && (ConfirmationChoice(answers[k]) == Some(No) || RetryChoice(answers[k]) == Some(GiveUp))
    ensures edits == [] ==> r == InputExhausted
  {
    var readings := Readings(items, edits);
    var r := Loop(readings, 0, answers, 0, ConfirmationChoice, RetryChoice);
    assert r.Finished? ==> readings[r.editsUsed - 1] == ReadFileNames(Lines(edits[r.editsUsed - 1]), items);
    assert r.Finished? && r.accepted.Some? && r.accepted.value != [] ==>
             exists k :: 0 <= k < |answers| && ConfirmationChoice(answers[k]) == Some(Yes) by {
      if r.Finished? && r.accepted.Some? && r.accepted.value != [] {
        var k :| 0 <= k < |answers| && ConfirmationChoice(answers[k]) == Some(Yes);
      }
    }
    assert r.Finished? && r.accepted.None? ==>
             exists k :: 0 <= k < |answers| && (ConfirmationChoice(answers[k]) == Some(No) || RetryChoice(answers[k]) == Some(GiveUp)) by {
      if r.Finished? && r.accepted.None? {
        var k :| 0 <= k < |answers| && (ConfirmationChoice(answers[k]) == Some(No) || RetryChoice(answers[k]) == Some(GiveUp));
      }
    }
    r
  }

  /**
   When the first edit reads as actions, the first recognised answer decides: "y" accepts
   them, "n" aborts, and "e" opens the editor again, continuing with the answers after it.
   */
  lemma FirstEditDecides(items: seq<FsItem>, edits: seq<string>, answers: seq<string>, k: nat)
    requires 0 < |edits|
    requires ReadFileNames(Lines(edits[0]), items).Ok? && ReadFileNames(Lines(edits[0]), items).actions != []
    requires FirstRecognised(answers, 0, k, ConfirmationChoice)
    ensures var actions := ReadFileNames(Lines(edits[0]), items).actions;
            var r := RunEditProcess(items, edits, answers);
            match ConfirmationChoice(answers[k]).value
            case Yes => r == Finished(Some(actions), 1)
            case No => r == Finished(None, 1)
            case Edit => r == Loop(Readings(items, edits), 1, answers, k + 1, ConfirmationChoice, RetryChoice)
  {
    var readings := Readings(items, edits);
    assert readings[0] == ReadFileNames(Lines(edits[0]), items);
    var actions := readings[0].actions;
    LoopConfirmDecides(readings, 0, answers, 0, k, ConfirmationChoice, RetryChoice);
    var r := RunEditProcess(items, edits, answers);
    assert r == Loop(readings, 0, answers, 0, ConfirmationChoice, RetryChoice);
    match ConfirmationChoice(answers[k]).value
    case Yes => assert r == Finished(Some(actions), 1);
    case No => assert r == Finished(None, 1);
    case Edit => assert r == Loop(readings, 1, answers, k + 1, ConfirmationChoice, RetryChoice);
  }

  /** Answering "n" and then "y" to the first confirmation aborts: the later "y" is never read. */
  lemma NoThenYesAborts(items: seq<FsItem>, edits: seq<string>)
    requires 0 < |edits|
    requires ReadFileNames(Lines(edits[0]), items).Ok? && ReadFileNames(Lines(edits[0]), items).actions != []
    ensures RunEditProcess(items, edits, ["n", "y"]) == Finished(None, 1)
  {
    assert IsTrimmed("n") by { assert !IsWhitespace('n'); }
    TrimOfTrimmed("n");
    ConfirmationChoiceCases("n");
    assert FirstRecognised(["n", "y"], 0, 0, ConfirmationChoice);
    FirstEditDecides(items, edits, ["n", "y"], 0);
  }

  /** An edit that asks for nothing ends the session at once, accepting the empty list without a prompt. */
  lemma NothingToDoAcceptsAtOnce(items: seq<FsItem>, edits: seq<string>, answers: seq<string>)
    requires 0 < |edits| && ReadFileNames(Lines(edits[0]), items) == Ok([])
    ensures RunEditProcess(items, edits, answers) == Finished(Some([]), 1)
  {
  }

  /** Leaving the listing unedited finishes the session with nothing to do. */
  lemma UneditedListingFinishes(items: seq<FsItem>, rest: seq<string>, answers: seq<string>)
    requires forall k :: 0 <= k < |items| ==> Listable(items[k].name)
    ensures RunEditProcess(items, [WriteFileNames(items)] + rest, answers) == Finished(Some([]), 1)
  {
    UneditedListingRoundTrip(items);
    NothingToDoAcceptsAtOnce(items, [WriteFileNames(items)] + rest, answers);
  }

  /**
   At the confirmation prompt the first answer, when recognised, decides: "y" accepts
   the shown actions, "n" aborts, "e" goes round again with the following answers.
   */
  lemma ConfirmAnswer(actions: seq<Action>, answers: seq<string>, ai: nat, choice: string -> Option<InputResult>)
    requires ai < |answers|
    ensures choice(answers[ai]) == Some(Yes) ==> Confirm(actions, answers, ai, choice) == Stop(Some(actions))
    ensures choice(answers[ai]) == Some(No) ==> Confirm(actions, answers, ai, choice) == Stop(None)
    ensures choice(answers[ai]) == Some(Edit) ==> Confirm(actions, answers, ai, choice) == Again(1)
  {
    assert answers[ai..][0] == answers[ai];
  }

  /** An answer the confirmation prompt does not recognise is skipped and the question asked again. */
  lemma ConfirmRepeats(actions: seq<Action>, answers: seq<string>, ai: nat, choice: string -> Option<InputResult>)
    requires ai < |answers| && choice(answers[ai]).None?
    ensures Confirm(actions, answers, ai, choice) == match Confirm(actions, answers, ai + 1, choice)
                                              case Again(used) => Again(used + 1)
                                              case other => other
  {
    assert answers[ai..][0] == answers[ai];
    assert answers[ai..][1..] == answers[ai + 1..];
  }

  /** After a parse error, "y" goes round again and "n" aborts. */
  lemma RetryAnswer(answers: seq<string>, ai: nat, choice: string -> Option<InputErrorResult>)
    requires ai < |answers|
    ensures choice(answers[ai]) == Some(Retry) ==> RetryPrompt(answers, ai, choice) == Again(1)
    ensures choice(answers[ai]) == Some(GiveUp) ==> RetryPrompt(answers, ai, choice) == Stop(None)
  {
    assert answers[ai..][0] == answers[ai];
  }

  /** An answer the retry prompt does not recognise is skipped and the question asked again. */
  lemma RetryRepeats(answers: seq<string>, ai: nat, choice: string -> Option<InputErrorResult>)
    requires ai < |answers| && choice(answers[ai]).None?
    ensures RetryPrompt(answers, ai, choice) == match RetryPrompt(answers, ai + 1, choice)
                                               case Again(used) => Again(used + 1)
                                               case other => other
  {
    assert answers[ai..][0] == answers[ai];
    assert answers[ai..][1..] == answers[ai + 1..];
  }

  /**
   Whatever comes before it, the first recognised answer decides the confirmation
   prompt: "y" accepts, "n" aborts, "e" goes round again after the lines up to it.
   */
  lemma ConfirmDecides(actions: seq<Action>, answers: seq<string>, ai: nat, k: nat, choice: string -> Option<InputResult>)
    requires FirstRecognised(answers, ai, k, choice)
    ensures Confirm(actions, answers, ai, choice) == match choice(answers[k]).value
                                                     case Yes => Stop(Some(actions))
                                                     case No => Stop(None)
                                                     case Edit => Again(k - ai + 1)
  {
    match Confirm(actions, answers, ai, choice)
    case Stop(accepted) =>
      var k' :| FirstRecognised(answers, ai, k', choice) && choice(answers[k']) == Some(if accepted.Some? then Yes else No);
      FirstRecognisedUnique(answers, ai, k, k', choice);
    case Again(used) =>
      FirstRecognisedUnique(answers, ai, k, ai + used - 1, choice);
    case Stuck =>
  }

  /** The first recognised answer decides the retry prompt: "y" goes round again, "n" aborts. */
  lemma RetryDecides(answers: seq<string>, ai: nat, k: nat, choice: string -> Option<InputErrorResult>)
    requires FirstRecognised(answers, ai, k, choice)
    ensures RetryPrompt(answers, ai, choice) == match choice(answers[k]).value
                                               case Retry => Again(k - ai + 1)
                                               case GiveUp => Stop(None)
  {
    match RetryPrompt(answers, ai, choice)
    case Stop(_) =>
      var k' :| FirstRecognised(answers, ai, k', choice) && choice(answers[k']) == Some(GiveUp);
      FirstRecognisedUnique(answers, ai, k, k', choice);
    case Again(used) =>
      FirstRecognisedUnique(answers, ai, k, ai + used - 1, choice);
    case Stuck =>
  }

  /** The error an operation reported, if it failed. */
  function ErrorOf(r: IoResult): (e: Option<IoError>)
    ensures e.Some? <==> r.Failed?
    ensures e.Some? ==> r == Failed(e.value)
  {
    match r
    case Done(_) => None
    case Failed(error) => Some(error)
  }

  /** The filesystem after applying the actions one after the other, each to what the ones before it left. */
  function Replay(actions: seq<Action>, items: seq<FsItem>, fs: Fs): Fs
    requires forall n :: 0 <= n < |actions| ==> actions[n].index < |items|
    decreases |actions|
  {
    if actions == [] then fs
    else Replay(actions[1..], items, After(Apply(actions[0], items, fs), fs))
  }

  /** What each action reports when the actions are applied one after the other: its error, if it failed. */
  function ReplayErrors(actions: seq<Action>, items: seq<FsItem>, fs: Fs): (errors: seq<Option<IoError>>)
    requires forall n :: 0 <= n < |actions| ==> actions[n].index < |items|
    ensures |errors| == |actions|
    decreases |actions|
  {
    if actions == [] then []
    else
      var r := Apply(actions[0], items, fs);
      [ErrorOf(r)] + ReplayErrors(actions[1..], items, After(r, fs))
  }

  /**
   A run of states in which each follows from the one before by the next action, with
   each action's error recorded, has recorded exactly the replayed errors.
   */
  lemma {:induction false} ErrorsAreReplayed(actions: seq<Action>, items: seq<FsItem>, states: seq<Fs>, errors: seq<Option<IoError>>)
    requires forall n :: 0 <= n < |actions| ==> actions[n].index < |items|
    requires |states| == |actions| + 1 && |errors| == |actions|
    requires forall n :: 0 <= n < |actions| ==> states[n + 1] == After(Apply(actions[n], items, states[n]), states[n])
    requires forall n :: 0 <= n < |actions| ==> errors[n] == ErrorOf(Apply(actions[n], items, states[n]))
    ensures errors == ReplayErrors(actions, items, states[0])
    decreases |actions|
  {
    if actions != [] {
      ErrorsAreReplayed(actions[1..], items, states[1..], errors[1..]);
      assert errors == [errors[0]] + errors[1..];
    }
  }

  /** Replaying from action `n` is applying action `n`, then replaying from `n + 1`. */
  lemma ReplayStep(actions: seq<Action>, items: seq<FsItem>, n: nat, fs: Fs)
    requires n < |actions| && forall k :: 0 <= k < |actions| ==> actions[k].index < |items|
    ensures Replay(actions[n..], items, fs) == Replay(actions[n + 1..], items, After(Apply(actions[n], items, fs), fs))
  {
    assert actions[n..][1..] == actions[n + 1..];
  }

  /**
   The apply loop of `main`: every accepted action is applied in order to the
   filesystem left by the ones before it; a failure is reported (with the name of the
   action's entry) and the loop goes on. `states[n]` is the filesystem before action
   `n`, the last state is the final one, and `errors[n]` is what action `n` reported.
   */
  method ApplyAll(actions: seq<Action>, items: seq<FsItem>, fs: Fs) returns (states: seq<Fs>, errors: seq<Option<IoError>>)
    requires forall n :: 0 <= n < |actions| ==> actions[n].index < |items|
    ensures |states| == |actions| + 1 && states[0] == fs
    ensures states[|actions|] == Replay(actions, items, fs)
    ensures errors == ReplayErrors(actions, items, fs)
    ensures forall n :: 0 <= n < |actions| ==> states[n + 1] == After(Apply(actions[n], items, states[n]), states[n])
    ensures forall n :: 0 <= n < |actions| ==> errors[n] == ErrorOf(Apply(actions[n], items, states[n]))
    ensures forall n :: 0 <= n < |actions| ==>
              (errors[n].Some? <==> Apply(actions[n], items, states[n]).Failed?) &&
              (errors[n].Some? ==> Apply(actions[n], items, states[n]) == Failed(errors[n].value))
  {
    states := [fs];
    errors := [];
    var n := 0;
    while n < |actions|
      invariant 0 <= n <= |actions|
      invariant |states| == n + 1 && states[0] == fs && |errors| == n
      invariant Replay(actions[n..], items, states[n]) == Replay(actions, items, fs)
      invariant forall k :: 0 <= k < n ==> states[k + 1] == After(Apply(actions[k], items, states[k]), states[k])
      invariant forall k :: 0 <= k < n ==> errors[k] == ErrorOf(Apply(actions[k], items, states[k]))
    {
      var cur := states[n];
      var r := Apply(actions[n], items, cur);
      ReplayStep(actions, items, n, cur);
      states := states + [After(r, cur)];
      errors := errors + [ErrorOf(r)];
      n := n + 1;
    }
    ErrorsAreReplayed(actions, items, states, errors);
  }

  /**
   `main` after the listing is written: run the edit session, then apply the accepted
   actions. An aborted or unfinished session leaves the filesystem as it was.
   */
  method Renamer(items: seq<FsItem>, edits: seq<string>, answers: seq<string>, fs: Fs)
    returns (outcome: Outcome, final: Fs, errors: seq<Option<IoError>>)
    ensures outcome == RunEditProcess(items, edits, answers)
    ensures outcome.Finished? && outcome.accepted.Some? ==> final == Replay(outcome.accepted.value, items, fs)
    ensures outcome.Finished? && outcome.accepted.Some? ==> errors == ReplayErrors(outcome.accepted.value, items, fs)
    ensures !(outcome.Finished? && outcome.accepted.Some?) ==> final == fs && errors == []
    ensures final != fs ==> exists k :: 0 <= k < |answers| && ConfirmationChoice(answers[k]) == Some(Yes)
  {
    outcome := RunEditProcess(items, edits, answers);
    if outcome.Finished? && outcome.accepted.Some? {
      var actions := outcome.accepted.value;
      assert ReadFileNames(Lines(edits[outcome.editsUsed - 1]), items) == Ok(actions);
      var states;
      states, errors := ApplyAll(actions, items, fs);
      final := states[|actions|];
    } else {
      final := fs;
      errors := [];
    }
  }
}

=== FILE: text.dfy ===
/**
 String helpers used by the renamer: Rust's `str::trim`, `trim_start_matches`,
 ASCII lowercasing and case-insensitive comparison, and the line
 splitting of `BufRead::lines`. Strings are sequences of Unicode scalar values.
 */
module Text {

  datatype Option<+T> = None | Some(value: T)

  /** Rust's `char::is_whitespace`: the Unicode White_Space property. */
  predicate IsWhitespace(c: char) {
    || ('\t' <= c <= '\r')
    || c == ' '
    || c == '\U{0085}'
    || c == '\U{00A0}'
    || c == '\U{1680}'
    || ('\U{2000}' <= c <= '\U{200A}')
    || c == '\U{2028}'
    || c == '\U{2029}'
    || c == '\U{202F}'
    || c == '\U{205F}'
    || c == '\U{3000}'
  }

  /** Neither the first nor the last character is whitespace. */
  predicate IsTrimmed(s: string) {
    |s| > 0 ==> !IsWhitespace(s[0]) && !IsWhitespace(s[|s| - 1])
  }

  predicate AllWhitespace(s: string) {
    forall k :: 0 <= k < |s| ==> IsWhitespace(s[k])
  }

  /** `str::trim_start`: drops the leading whitespace. */
  function TrimStart(s: string): (r: string)
    ensures |r| <= |s| && r == s[|s| - |r|..]
    ensures forall k :: 0 <= k < |s| - |r| ==> IsWhitespace(s[k])
    ensures |r| > 0 ==> !IsWhitespace(r[0])
  {
    if |s| > 0 && IsWhitespace(s[0]) then TrimStart(s[1..]) else s
  }

  /** `str::trim_end`: drops the trailing whitespace. */
  function TrimEnd(s: string): (r: string)
    ensures |r| <= |s| && r == s[..|r|]
    ensures forall k :: |r| <= k < |s| ==> IsWhitespace(s[k])
    ensures |r| > 0 ==> !IsWhitespace(r[|r| - 1])
  {
    if |s| > 0 && IsWhitespace(s[|s| - 1]) then TrimEnd(s[..|s| - 1]) else s
  }

  /**
   `str::trim`: the longest infix of `s` with no whitespace at either end; what is
   dropped before and after it is whitespace only.
   */
  function Trim(s: string): (r: string)
    ensures IsTrimmed(r)
    ensures r == "" <==> AllWhitespace(s)
    ensures exists i :: 0 <= i <= |s| && r <= s[i..] && AllWhitespace(s[..i]) && AllWhitespace(s[i..][|r|..])
  {
    var t := TrimStart(s);
    var r := TrimEnd(t);
    var i := |s| - |t|;
    WhitespaceSlice(s, 0, i);
    WhitespaceSlice(t, |r|, |t|);
    assert s[..i] == s[0..i];
    assert s[i..] == t && t[|r|..] == t[|r|..|t|];
    r
  }

  /** Whitespace at every position from `lo` up to `hi` makes the slice all whitespace. */
  lemma WhitespaceSlice(s: string, lo: nat, hi: nat)
    requires lo <= hi <= |s|
    requires forall k :: lo <= k < hi ==> IsWhitespace(s[k])
    ensures AllWhitespace(s[lo..hi])
  {
    forall k | 0 <= k < hi - lo
      ensures IsWhitespace(s[lo..hi][k])
    {
      assert s[lo..hi][k] == s[lo + k];
    }
  }

  /** Trimming a string that is already trimmed gives it back. */
  lemma {:induction false} TrimOfTrimmed(s: string)
    requires IsTrimmed(s)
    ensures Trim(s) == s
  {
    assert TrimStart(s) == s;
    assert TrimEnd(s) == s;
  }

  /** Rust's `char::to_ascii_lowercase`. */
  function LowerChar(c: char): char {
    if 'A' <= c <= 'Z' then (c as int + 32) as char else c
  }

  /** Lowercasing restricted to ASCII letters; every other character is kept. */
  function ToLowerAscii(s: string): (r: string)
    ensures |r| == |s|
    ensures forall k :: 0 <= k < |s| ==> r[k] == LowerChar(s[k])
  {
    if s == "" then "" else [LowerChar(s[0])] + ToLowerAscii(s[1..])
  }

  /** `str::eq_ignore_ascii_case`. */
  predicate EqIgnoreAsciiCase(a: string, b: string) {
    |a| == |b| && forall k :: 0 <= k < |a| ==> LowerChar(a[k]) == LowerChar(b[k])
  }

  /** Comparing without ASCII case is comparing the ASCII-lowercased strings. */
  lemma EqIgnoreAsciiCaseLowered(a: string, b: string)
    ensures EqIgnoreAsciiCase(a, b) <==> ToLowerAscii(a) == ToLowerAscii(b)
  {
    if ToLowerAscii(a) == ToLowerAscii(b) {
      forall k | 0 <= k < |a|
        ensures LowerChar(a[k]) == LowerChar(b[k])
      {
        assert ToLowerAscii(a)[k] == ToLowerAscii(b)[k];
      }
    }
  }

  /**
   Where the run of `c` that starts at position `i` of `s` ends: `str::trim_start_matches`
   with a one-character pattern, applied to `s[i..]`, leaves `s[RunEnd(s, i, c)..]`.
   */
  function RunEnd(s: string, i: nat, c: char): (j: nat)
    requires i <= |s|
    ensures i <= j <= |s|
    ensures forall k :: i <= k < j ==> s[k] == c
    ensures j < |s| ==> s[j] != c
    decreases |s| - i
  {
    if i < |s| && s[i] == c then RunEnd(s, i + 1, c) else i
  }

  /** The position of the first occurrence of `c` in `s`. */
  function IndexOf(s: string, c: char): (r: Option<nat>)
    ensures r.Some? ==> r.value < |s| && s[r.value] == c && c !in s[..r.value]
    ensures r.None? ==> c !in s
  {
    if s == "" then None
    else if s[0] == c then Some(0)
    else match IndexOf(s[1..], c)
      case None => None
      case Some(k) => Some(k + 1)
  }

  /** The names joined by a newline, with no separator before the first or after the last. */
  function JoinLines(xs: seq<string>): string {
    if |xs| == 0 then ""
    else if |xs| == 1 then xs[0]
    else xs[0] + "\n" + JoinLines(xs[1..])
  }

  /** A line ended by `\n` loses one trailing `\r` as well. */
  function DropCr(line: string): string {
    if |line| > 0 && line[|line| - 1] == '\r' then line[..|line| - 1] else line
  }

  /**
   `BufRead::lines`: split at each `\n`, dropping a `\r` just before it; the text after
   the last `\n` is a line only if it is not empty.
   */
  function Lines(text: string): (r: seq<string>)
    ensures forall k :: 0 <= k < |r| ==> '\n' !in r[k]
    ensures text != "" ==> r != []
    decreases |text|
  {
    if text == "" then []
    else match IndexOf(text, '\n')
      case None => [text]
      case Some(k) =>
        var line := DropCr(text[..k]);
        assert line <= text[..k];
        [line] + Lines(text[k + 1..])
  }

  /** Lines that contain no newline, do not end in `\r`, and whose last one is not empty survive a join and split. */
  lemma {:induction false} LinesOfJoin(xs: seq<string>)
    requires forall k :: 0 <= k < |xs| ==> '\n' !in xs[k]
    requires forall k :: 0 <= k < |xs| ==> DropCr(xs[k]) == xs[k]
    requires |xs| > 0 ==> xs[|xs| - 1] != ""
    ensures Lines(JoinLines(xs)) == xs
  {
    if |xs| == 0 {
    } else if |xs| == 1 {
      assert IndexOf(xs[0], '\n') == None;
    } else {
      var x := xs[0];
      var text := JoinLines(xs);
      assert text == x + "\n" + JoinLines(xs[1..]);
      IndexOfAfter(x, JoinLines(xs[1..]));
      assert text[..|x|] == x;
      assert text[|x| + 1..] == JoinLines(xs[1..]);
      LinesOfJoin(xs[1..]);
      JoinNonEmpty(xs[1..]);
      assert xs == [x] + xs[1..];
    }
  }

  lemma {:induction false} IndexOfAfter(x: string, rest: string)
    requires '\n' !in x
    ensures IndexOf(x + "\n" + rest, '\n') == Some(|x|)
  {
    if x == "" {
    } else {
      assert (x + "\n" + rest)[1..] == x[1..] + "\n" + rest;
      IndexOfAfter(x[1..], rest);
    }
  }

  lemma {:induction false} JoinNonEmpty(xs: seq<string>)
    requires |xs| > 0 && xs[|xs| - 1] != ""
    ensures JoinLines(xs) != ""
  {
    if |xs| > 1 {
      JoinNonEmpty(xs[1..]);
    }
  }
}
